=== FILE: README.md ===
# Resume builder: a Dafny model

This project models the core of a Django resume builder (the `resumesite` app), in which logged-in users keep resumes with Experience, Education and Skill entries. The model covers three areas:

- **The record store** (`models.py`): Users, Resumes, Educations, Experiences, a global Skill table and (Resume, Skill) links. The database constraints become a validity predicate. The `ON DELETE CASCADE` foreign keys become store-to-store delete functions.
- **The submission checks** (`forms.py`):
  - the contact phone and email patterns, written as hand-rolled matchers and proved equal to what the patterns mean;
  - the Experience date rule;
  - the Education year rules, with the current year as a parameter;
  - the repeating-group ("formset") validation, which skips rows flagged for deletion;
  - the group settings: three blank rows per group, and 2015/2016 as the default initial years.
- **The views** (`views.py`):
  - the owner check behind every `test_func`;
  - the list page, and the detail page with its two orderings;
  - the nested create/update/delete pages;
  - the aggregate `ResumeCreateView.post`. Its three save loops are specified as left folds over the submitted rows, and it is performed in place by a `Database` class.

Modules:

| module | file | models |
|---|---|---|
| `Wrappers` | wrappers.dfy | `Option`, `Result` |
| `Models` | models.dfy | entities, `Store`, `Valid`, cascades, `__str__` |
| `Forms` | forms.dfy | clean methods, matchers, formset validation |
| `Persistence` | persistence.dfy | ORM writes (`save`, `get_or_create`) as functions; the `Database` class doing them in place |
| `Ordering` | ordering.dfy | filtering a table by key; `order_by('-field')` as an insertion sort |
| `Views` | views.dfy | access, list, detail, nested pages, findings |
| `ResumeCreate` | create.dfy | the aggregate create page |

How the source's inputs are represented:

- A date is stored as its day number, so comparing dates compares integers.
- Every table draws its keys from one counter (`nextId`).
- The requester and the current year are parameters.
- A submitted group row is `Blank` (an untouched extra row) or `Filled(data, delete, fieldErrors)`. Here `fieldErrors` stands for every error Django's own field parsing and length checks would raise. The uniqueness check on `Skill.name`, which needs the store, is modelled explicitly.

## Model

| member | source | states |
|---|---|---|
| Forms.PhonePatternIff | djangoProject/resume_builder_django/resumesite/forms.py:45 | the matcher for `^\+?1?\d{9,15}$` accepts exactly: an optional '+', then 9-15 digits or 16 digits starting with '1' |
| Forms.CleanContactPhone | djangoProject/resume_builder_django/resumesite/forms.py:43-47 | returns the phone unchanged iff it has that shape, otherwise the invalid-phone error |
| Forms.EmailMatcherCorrect | djangoProject/resume_builder_django/resumesite/forms.py:51 | the matcher accepts exactly the strings that have a prefix of the form: non-'@' run, '@', non-'@' run, '.', non-'@' run, each run non-empty |
| Forms.EmailNeedsAt | djangoProject/resume_builder_django/resumesite/forms.py:51 | a string without '@' is rejected |
| Forms.EmailNeedsDotAfterAt | djangoProject/resume_builder_django/resumesite/forms.py:51 | a string with no '.' after its first '@' is rejected |
| Forms.EmailAllowsTrailing | djangoProject/resume_builder_django/resumesite/forms.py:51 | `re.match` anchors only at the start: any text may follow a matching prefix |
| Forms.CleanContactEmail | djangoProject/resume_builder_django/resumesite/forms.py:49-53 | returns the email unchanged iff a prefix matches, otherwise the invalid-email error |
| Forms.ResumeFormValid | djangoProject/resume_builder_django/resumesite/forms.py:10-53 | `ResumeForm.is_valid()` holds iff there is no field error, every field is filled in, the phone has the pattern's shape and a prefix of the email matches its pattern |
| Forms.CleanExperience | djangoProject/resume_builder_django/resumesite/forms.py:74-83 | a row flagged DELETE, or one with no end date, never errors; otherwise it errors (end-before-start) iff both dates are set and the end is before the start |
| Forms.CleanEducation | djangoProject/resume_builder_django/resumesite/forms.py:104-118 | DELETE rows pass; otherwise the rules are tried in order (start year in [1900, current], end year in [1900, current+1], end not before start) and each error is reported iff its rule is the first one broken |
| Forms.EducationAcceptedBounds | djangoProject/resume_builder_django/resumesite/forms.py:112-117 | an accepted row with both years set has 1900 <= start <= end <= current+1 and start <= current |
| Forms.EducationZeroYearIsAbsent | djangoProject/resume_builder_django/resumesite/forms.py:112-116 | a year of 0 is judged exactly like a missing year (Python truthiness) |
| Forms.EducationNoStartYear | djangoProject/resume_builder_django/resumesite/forms.py:112-116 | with no truthy start year, only the end-year range can fail |
| Forms.EducationFormInitial.constructor | djangoProject/resume_builder_django/resumesite/forms.py:86-91 | a year field without a truthy initial value starts at 2015 (start) or 2016 (end); others keep theirs |
| Forms.CleanSkill | djangoProject/resume_builder_django/resumesite/forms.py:120-126 | `SkillForm` declares no clean method, so its clean never reports an error |
| Forms.ShouldDelete | djangoProject/resume_builder_django/resumesite/forms.py:134 | `_should_delete_form` with `can_delete=True`: a filled row whose DELETE box is ticked |
| Forms.SkipDeleteClean | djangoProject/resume_builder_django/resumesite/forms.py:130-137 | `BaseSkipDeleteFormSet.clean`: nothing if any row not being deleted has errors, otherwise the first error of re-running clean on the rows not being deleted |
| Forms.GroupValid | djangoProject/resume_builder_django/resumesite/forms.py:130-137 | `formset.is_valid()`: no row not being deleted has errors and the group clean raised nothing; `GroupValidIff` characterises it |
| Forms.BlankGroup | djangoProject/resume_builder_django/resumesite/forms.py:139-153 | a freshly shown group has `extra=3` rows and none of them is saved |
| Forms.CleanGroup | djangoProject/resume_builder_django/resumesite/forms.py:130-137 | the loop returns at once if any row has errors, skips rows to be deleted, and reports the first failing clean |
| Forms.SkipDeleteCleanAddsNothing | djangoProject/resume_builder_django/resumesite/forms.py:130-137 | the group-level clean can never report an error: it re-runs checks that the non-deleted rows have already passed |
| Forms.GroupValidIff | djangoProject/resume_builder_django/resumesite/forms.py:130-137 | a group is valid iff every filled row not flagged DELETE has no field error, has its required fields and passes its clean |
| Forms.DeletedRowNeverBlocks | djangoProject/resume_builder_django/resumesite/forms.py:133-135 | replacing a row by a DELETE-flagged one, whatever its values, keeps a valid group valid |
| Forms.GroupIsValid | djangoProject/resume_builder_django/resumesite/forms.py:130-137 | `is_valid()` on a group returns exactly that characterisation |
| Forms.SavedRows | djangoProject/resume_builder_django/resumesite/views.py:68-81 | the rows the save loops write: the data of every filled row not flagged DELETE is listed, and nothing else |
| Forms.SavedRowsOfOne | djangoProject/resume_builder_django/resumesite/views.py:69 | one row contributes its data iff it is filled and not flagged DELETE |
| Forms.SavedRowsAppend | djangoProject/resume_builder_django/resumesite/views.py:68-81 | the saved rows of `a + b` are those of `a` followed by those of `b`; with the one-row case this fixes their order and number |
| Models.OwnedBy | djangoProject/resume_builder_django/resumesite/models.py:7 | a resume key is in the set iff that resume belongs to the user |
| Models.DeleteResumes | djangoProject/resume_builder_django/resumesite/models.py:18-48 | deleting resumes removes exactly their Educations, Experiences and links; every other row, and every Skill and user, is unchanged; validity is kept |
| Models.DeleteResume | djangoProject/resume_builder_django/resumesite/models.py:18-48 | deleting one resume is the cascade for exactly that resume: it and every education, experience and link row pointing to it are removed, every other row is kept unchanged, users, skills and the id counter are untouched; validity is kept |
| Models.DeleteUser | djangoProject/resume_builder_django/resumesite/models.py:7 | deleting a user removes that user and exactly that user's resumes, keeps every other resume unchanged, keeps an education, experience or link row (with its value) exactly when its resume is not the user's, leaves skills and the id counter untouched; validity is kept |
| Models.DeleteSkill | djangoProject/resume_builder_django/resumesite/models.py:48 | deleting a Skill removes exactly the links to it; no resume, Education or Experience changes; validity is kept |
| Models.DeleteResumesStepwise | djangoProject/resume_builder_django/resumesite/models.py:7 | deleting one resume and then a set of others equals deleting all of them at once |
| Models.EducationStr | djangoProject/resume_builder_django/resumesite/models.py:26-27 | the string is the degree, then " at ", then the school |
| Models.ExperienceStr | djangoProject/resume_builder_django/resumesite/models.py:37-38 | the string is the job title, then " at ", then the company |
| Models.ResumeStr | djangoProject/resume_builder_django/resumesite/models.py:15-16 | the string is the title, then " (", then the user name, then ")" |
| Persistence.AddResume | djangoProject/resume_builder_django/resumesite/views.py:64-66 | `resume.save()` stores the resume under a fresh key (the next one) and changes no other table |
| Persistence.AddResumeKeepsValid | djangoProject/resume_builder_django/resumesite/views.py:64-66 | a new resume owned by an existing user keeps the store valid |
| Persistence.AddExperience | djangoProject/resume_builder_django/resumesite/views.py:70-72 | `exp.save()` stores the row under a fresh key and changes no other table |
| Persistence.AddExperienceKeepsValid | djangoProject/resume_builder_django/resumesite/views.py:70-72 | an Experience of an existing resume keeps the store valid |
| Persistence.AddEducation | djangoProject/resume_builder_django/resumesite/views.py:76-78 | `edu.save()` stores the row under a fresh key and changes no other table |
| Persistence.AddEducationKeepsValid | djangoProject/resume_builder_django/resumesite/views.py:76-78 | an Education of an existing resume keeps the store valid |
| Persistence.FindSkill | djangoProject/resume_builder_django/resumesite/models.py:41 | finds a Skill with the name, and finds none iff no Skill has it |
| Persistence.FindLink | djangoProject/resume_builder_django/resumesite/models.py:51-52 | finds a link of the (resume, skill) pair, and finds none iff there is none |
| Persistence.SkillGetOrCreate | djangoProject/resume_builder_django/resumesite/views.py:83 | returns a Skill of that name: the existing one with the store untouched, or else one new Skill under a fresh key |
| Persistence.SkillGetOrCreateKeepsValid | djangoProject/resume_builder_django/resumesite/views.py:83 | get-or-create on a name keeps Skill names unique, and the store valid |
| Persistence.LinkGetOrCreate | djangoProject/resume_builder_django/resumesite/views.py:84 | returns a link of the pair: the existing one with the store untouched, or else one new link with empty proficiency |
| Persistence.LinkGetOrCreateKeepsValid | djangoProject/resume_builder_django/resumesite/views.py:84 | get-or-create on an existing resume and Skill keeps links unique, and the store valid |
| Persistence.Database.SaveResume | djangoProject/resume_builder_django/resumesite/views.py:64-66 | the in-place save does what `AddResume` specifies |
| Persistence.Database.SaveExperience | djangoProject/resume_builder_django/resumesite/views.py:70-72 | the in-place save does what `AddExperience` specifies |
| Persistence.Database.SaveEducation | djangoProject/resume_builder_django/resumesite/views.py:76-78 | the in-place save does what `AddEducation` specifies |
| Persistence.Database.GetOrCreateSkill | djangoProject/resume_builder_django/resumesite/views.py:83 | the in-place get-or-create does what `SkillGetOrCreate` specifies; `created` is true iff no Skill had the name |
| Persistence.Database.GetOrCreateLink | djangoProject/resume_builder_django/resumesite/views.py:84 | the in-place get-or-create does what `LinkGetOrCreate` specifies; `created` is true iff the pair had no link |
| Ordering.KeysWhere | djangoProject/resume_builder_django/resumesite/views.py:31-33 | the keys of the rows passing the filter, strictly increasing: every such key, and no other |
| Ordering.RowsWhere | djangoProject/resume_builder_django/resumesite/views.py:31-32 | the rows passing the filter, in key order: every such row, and no other |
| Ordering.InsertDesc | djangoProject/resume_builder_django/resumesite/views.py:31-32 | inserting into a sequence ordered largest key first keeps it ordered, and adds exactly that one element |
| Ordering.SortDesc | djangoProject/resume_builder_django/resumesite/views.py:31-32 | `order_by('-key')` returns a permutation of its input, ordered largest key first |
| Views.ResumeAccess | djangoProject/resume_builder_django/resumesite/views.py:36-38 | granted iff the resume exists and its owner is the requester; not found iff it does not exist |
| Views.EducationAccess | djangoProject/resume_builder_django/resumesite/views.py:138-139 | granted iff the Education exists and its own resume is owned by the requester; forbidden (403) iff it exists, its resume exists and someone else owns it; not found whenever the row is missing |
| Views.ExperienceAccess | djangoProject/resume_builder_django/resumesite/views.py:177-178 | granted iff the Experience exists and its own resume is owned by the requester; forbidden (403) iff it exists, its resume exists and someone else owns it; not found whenever the row is missing |
| Views.ChildAccessIgnoresUrl | djangoProject/resume_builder_django/resumesite/views.py:138-149 | update and delete of a child row decide access the same way whatever `resume_id` the URL carries |
| Views.ResumeList | djangoProject/resume_builder_django/resumesite/views.py:20-21 | the list holds exactly the resumes whose detail page the requester may open, i.e. their own |
| Views.ExperiencesOf | djangoProject/resume_builder_django/resumesite/views.py:31 | `resume.experiences.all()` holds one entry per key of the resume's rows, each that key's row: only rows of the resume, each once, and (keys issued) every one of them |
| Views.EducationsOf | djangoProject/resume_builder_django/resumesite/views.py:32 | `resume.educations.all()` holds one entry per key of the resume's rows, each that key's row: only rows of the resume, each once, and (keys issued) every one of them |
| Views.SkillNamesOf | djangoProject/resume_builder_django/resumesite/views.py:33 | one name per link of the resume |
| Views.SkillNamesOfExact | djangoProject/resume_builder_django/resumesite/views.py:33 | a name is listed iff some link of the resume points at a Skill of that name |
| Views.SkillNamesOfDistinct | djangoProject/resume_builder_django/resumesite/views.py:33 | no name is listed twice, because Skill names and links are unique |
| Views.ResumeDetail | djangoProject/resume_builder_django/resumesite/views.py:28-38 | refused with the access answer iff the requester is not the owner; otherwise the resume, its Experiences as a permutation ordered by start date descending, its Educations as a permutation ordered by end year descending, and the skill names |
| Views.DetailShowsExactlyTheRows | djangoProject/resume_builder_django/resumesite/views.py:31-32 | the detail page lists a row iff the row belongs to the resume |
| Views.UpdateResume | djangoProject/resume_builder_django/resumesite/views.py:93-101 | refused iff not the owner; saved iff owner, no field error and required fields present; the owner is kept; otherwise nothing changes; validity is kept |
| Views.DeleteResumeView | djangoProject/resume_builder_django/resumesite/views.py:103-110 | refused (nothing changes) iff not the owner; done iff the owner asks, and then the store is the cascade delete of the resume; validity is kept |
| Views.CreateEducation | djangoProject/resume_builder_django/resumesite/views.py:113-128 | refused iff the URL's resume is not the requester's; saved iff the form is valid; the row is attached to the URL's resume; validity is kept |
| Views.UpdateEducation | djangoProject/resume_builder_django/resumesite/views.py:130-139 | access is decided by the row's own resume; refused iff it is not granted, with `EducationAccess`'s answer (404 for a missing row, 403 for another user's); on success the fields are replaced and the row keeps its resume; otherwise nothing changes |
| Views.DeleteEducation | djangoProject/resume_builder_django/resumesite/views.py:141-149 | refused (nothing changes) iff access is not granted, with `EducationAccess`'s answer (404 or 403); done iff it is granted, and then exactly that row is removed |
| Views.CreateExperience | djangoProject/resume_builder_django/resumesite/views.py:152-167 | refused iff the URL's resume is not the requester's; saved iff the form is valid; the row is attached to the URL's resume; validity is kept |
| Views.UpdateExperience | djangoProject/resume_builder_django/resumesite/views.py:169-178 | access is decided by the row's own resume; refused iff it is not granted, with `ExperienceAccess`'s answer (404 for a missing row, 403 for another user's); on success the fields are replaced and the row keeps its resume; otherwise nothing changes |
| Views.DeleteExperience | djangoProject/resume_builder_django/resumesite/views.py:180-188 | refused (nothing changes) iff access is not granted, with `ExperienceAccess`'s answer (404 or 403); done iff it is granted, and then exactly that row is removed |
| Views.ResumeRecord | djangoProject/resume_builder_django/resumesite/views.py:64-65 | `form.save(commit=False)` with `resume.user` set: the owner is the given user and the other fields come from the form |
| Views.ResumeRecordAccepted | djangoProject/resume_builder_django/resumesite/forms.py:43-53 | the Resume saved from a valid ResumeForm passes both contact checks, whoever owns it |
| Views.ExperienceRecord | djangoProject/resume_builder_django/resumesite/views.py:70-71 | `exp_form.save(commit=False)` with `exp.resume` set: the Experience of the row's values under the given resume |
| Views.EducationRecord | djangoProject/resume_builder_django/resumesite/views.py:76-77 | `edu_form.save(commit=False)` with `edu.resume` set: the Education of the row's values under the given resume |
| Views.ExperienceRecordOrdered | djangoProject/resume_builder_django/resumesite/forms.py:81-82 | a row passing `ExperienceForm.clean` is stored with an end date absent or not before its start |
| Views.EducationRecordAccepted | djangoProject/resume_builder_django/resumesite/forms.py:112-117 | a row passing `EducationForm.clean` is stored with years that `clean` accepts |
| Views.CreateExperienceAcceptsEndBeforeStart | djangoProject/resume_builder_django/resumesite/views.py:152-160 | the nested create page saves a row that ends before it starts, which `ExperienceForm.clean` rejects |
| Views.UpdateExperienceAcceptsEndBeforeStart | djangoProject/resume_builder_django/resumesite/views.py:169-172 | the nested update page turns a stored Experience into one that ends before it starts |
| Views.CreateEducationAcceptsYearOutOfRange | djangoProject/resume_builder_django/resumesite/views.py:113-121 | the nested create page saves a start year of 1800 |
| Views.UpdateEducationAcceptsEndBeforeStart | djangoProject/resume_builder_django/resumesite/views.py:130-133 | the nested update page stores an end year before the start year |
| Views.UpdateResumeAcceptsBadPhone | djangoProject/resume_builder_django/resumesite/views.py:93-97 | the resume update page stores a phone number that `clean_contact_phone` rejects |
| Views.CheckedCreateExperience | djangoProject/resume_builder_django/resumesite/views.py:152-160 | the nested create page with `ExperienceForm.clean` applied: saved iff the page as written saves and the row passes clean, and then with the same effect; all stored dates stay ordered |
| Views.CheckedUpdateExperience | djangoProject/resume_builder_django/resumesite/views.py:169-172 | the same for the nested update page |
| Views.CheckedCreateEducation | djangoProject/resume_builder_django/resumesite/views.py:113-121 | the nested create page with `EducationForm.clean` applied; all stored years stay accepted |
| Views.CheckedUpdateEducation | djangoProject/resume_builder_django/resumesite/views.py:130-133 | the same for the nested update page |
| Views.CheckedUpdateResume | djangoProject/resume_builder_django/resumesite/views.py:93-97 | the resume update page with ResumeForm's phone and email checks applied; all stored contact details stay accepted |
| ResumeCreate.SkillAccepted | djangoProject/resume_builder_django/resumesite/models.py:41 | a skill row's own checks: the name is filled in and, `Skill.name` being unique, no stored Skill has it |
| ResumeCreate.SubmissionValid | djangoProject/resume_builder_django/resumesite/views.py:62 | the four `is_valid()` calls against the current store: the resume form and the Experience, Education and Skill groups |
| ResumeCreate.SharedSkillsSubmissionValid | djangoProject/resume_builder_django/resumesite/views.py:62 | the same checks without the uniqueness check of `Skill.name` |
| ResumeCreate.SubmissionValidIff | djangoProject/resume_builder_django/resumesite/views.py:62 | a submission passes as written iff it passes without the uniqueness check and no saved skill row names a stored Skill |
| ResumeCreate.ValidGroupsComplete | djangoProject/resume_builder_django/resumesite/views.py:62 | in valid groups, every saved row has its required dates/years and passes its form's clean |
| ResumeCreate.NewExperiencesOfSavedRows | djangoProject/resume_builder_django/resumesite/views.py:68-72 | the Experiences the loop creates are exactly the saved rows' records, each attached to the new resume |
| ResumeCreate.NewExperiencesCount | djangoProject/resume_builder_django/resumesite/views.py:68-72 | the loop creates one Experience per saved row |
| ResumeCreate.NewExperiencesOrdered | djangoProject/resume_builder_django/resumesite/views.py:62-72 | saved rows that passed `ExperienceForm.clean` give Experiences whose dates are ordered |
| ResumeCreate.NewEducationsOfSavedRows | djangoProject/resume_builder_django/resumesite/views.py:74-78 | the Educations the loop creates are exactly the saved rows' records, each attached to the new resume |
| ResumeCreate.NewEducationsCount | djangoProject/resume_builder_django/resumesite/views.py:74-78 | the loop creates one Education per saved row |
| ResumeCreate.NewEducationsAccepted | djangoProject/resume_builder_django/resumesite/views.py:62-78 | saved rows that passed `EducationForm.clean` give Educations whose years it accepts |
| ResumeCreate.SaveExperienceRows | djangoProject/resume_builder_django/resumesite/views.py:68-72 | the experience loop only adds Experiences: one fresh key per saved row, old rows and every other table unchanged |
| ResumeCreate.SaveExperienceRowsKeepsValid | djangoProject/resume_builder_django/resumesite/views.py:68-72 | the loop keeps the store valid when the resume exists |
| ResumeCreate.SaveExperienceRowsHead | djangoProject/resume_builder_django/resumesite/views.py:68-72 | the first saved row is stored under the first key handed out |
| ResumeCreate.SaveExperienceRowsStores | djangoProject/resume_builder_django/resumesite/views.py:68-72 | each key the loop hands out holds the new Experience of that position, in row order |
| ResumeCreate.SaveEducationRows | djangoProject/resume_builder_django/resumesite/views.py:74-78 | the education loop only adds Educations: one fresh key per saved row, old rows and every other table unchanged |
| ResumeCreate.SaveEducationRowsKeepsValid | djangoProject/resume_builder_django/resumesite/views.py:74-78 | the loop keeps the store valid when the resume exists |
| ResumeCreate.SaveEducationRowsHead | djangoProject/resume_builder_django/resumesite/views.py:74-78 | the first saved row is stored under the first key handed out |
| ResumeCreate.SaveEducationRowsStores | djangoProject/resume_builder_django/resumesite/views.py:74-78 | each key the loop hands out holds the new Education of that position, in row order |
| ResumeCreate.SaveSkill | djangoProject/resume_builder_django/resumesite/views.py:82-84 | one pass of the skill loop touches only the Skill and link tables |
| ResumeCreate.SkillGetOrCreateGrows | djangoProject/resume_builder_django/resumesite/views.py:83 | the Skill get-or-create adds at most one Skill, of that name, and changes nothing else |
| ResumeCreate.LinkGetOrCreateGrows | djangoProject/resume_builder_django/resumesite/views.py:84 | the link get-or-create links the Skill's name to the resume and adds at most that link |
| ResumeCreate.SaveSkillKeepsValid | djangoProject/resume_builder_django/resumesite/views.py:82-84 | one pass keeps the store valid, leaves the name linked to the resume, and adds only a Skill and link for that name |
| ResumeCreate.SaveSkillRows | djangoProject/resume_builder_django/resumesite/views.py:80-84 | the skill loop changes neither resumes, nor Experiences, nor Educations, nor users |
| ResumeCreate.SaveSkillRowsGrows | djangoProject/resume_builder_django/resumesite/views.py:80-84 | the loop keeps the store valid (names and links unique), changes no existing Skill or link, and adds only Skills and links for saved names |
| ResumeCreate.SaveSkillRowsLinks | djangoProject/resume_builder_django/resumesite/views.py:80-84 | after the loop every saved name is linked to the resume |
| ResumeCreate.SaveLinkedSkillChangesNothing | djangoProject/resume_builder_django/resumesite/views.py:83-84 | saving a name that is already linked to the resume changes nothing |
| ResumeCreate.SaveLinkedSkillRowsChangesNothing | djangoProject/resume_builder_django/resumesite/views.py:80-84 | a skill group whose names are all linked already changes nothing |
| ResumeCreate.SaveSkillRowsIdempotent | djangoProject/resume_builder_django/resumesite/views.py:80-84 | running the skill loop again on its own result changes nothing |
| ResumeCreate.RepeatedSkillSavedOnce | djangoProject/resume_builder_django/resumesite/views.py:80-84 | a row submitted twice (e.g. "Go", "Go") has the same effect as submitting it once |
| ResumeCreate.ExistingSkillReused | djangoProject/resume_builder_django/resumesite/views.py:83 | when a Skill of the name exists it is reused: the Skill table is untouched (as written, only for a name repeated within one submission) |
| ResumeCreate.CreatePage | djangoProject/resume_builder_django/resumesite/views.py:45-55 | the GET page shows three blank rows per group, none of which would be saved |
| ResumeCreate.CreateResume | djangoProject/resume_builder_django/resumesite/views.py:57-91 | on invalid input, the same four inputs come back and the store is unchanged; on valid input, the new resume's key and the store after all writes |
| ResumeCreate.RowsStore | djangoProject/resume_builder_django/resumesite/views.py:63-78 | the writes before the skill loop: the resume under the next key, then the Experience and Education loops for it; the `CreatedStore*` lemmas state its effect |
| ResumeCreate.CreatedStore | djangoProject/resume_builder_django/resumesite/views.py:63-84 | everything a valid submission writes: `RowsStore`, then the skill loop; the `CreatedStore*` lemmas state its effect |
| ResumeCreate.StoredSkillNameRejected | djangoProject/resume_builder_django/resumesite/forms.py:120-126 | as written, a submission with a saved skill row naming a stored Skill is shown again and nothing is written |
| ResumeCreate.SharedSkillsCreateResume | djangoProject/resume_builder_django/resumesite/views.py:57-91 | the create page with stored Skills shared: rejected iff the checks without uniqueness fail, otherwise the same writes as `CreateResume` |
| ResumeCreate.SharedSkillsCreateExtends | djangoProject/resume_builder_django/resumesite/views.py:57-91 | for every submission the page as written accepts, sharing gives the same result and store |
| ResumeCreate.SharedSkillsReuseStoredSkill | djangoProject/resume_builder_django/resumesite/views.py:83-84 | with sharing, a row naming a stored Skill creates the resume and links it to that same Skill, unchanged, and no second Skill of the name exists |
| ResumeCreate.CreatedStoreAddsResume | djangoProject/resume_builder_django/resumesite/views.py:63-66 | success adds exactly one resume, owned by the requester, under a fresh key; no existing row is altered or removed; the store stays valid |
| ResumeCreate.CreatedStoreExperienceKeys | djangoProject/resume_builder_django/resumesite/views.py:68-72 | the new Experience keys are exactly one per saved row, right after the resume's |
| ResumeCreate.CreatedStoreExperiences | djangoProject/resume_builder_django/resumesite/views.py:68-72 | those keys hold the saved rows' records, attached to the new resume, in row order |
| ResumeCreate.CreatedStoreEducationKeys | djangoProject/resume_builder_django/resumesite/views.py:74-78 | the new Education keys are exactly one per saved row, right after the Experiences' |
| ResumeCreate.CreatedStoreEducations | djangoProject/resume_builder_django/resumesite/views.py:74-78 | those keys hold the saved rows' records, attached to the new resume, in row order |
| ResumeCreate.RowsStoreExperiences | djangoProject/resume_builder_django/resumesite/views.py:68-72 | the new Experiences' keys hold the saved records in the store before the skill loop |
| ResumeCreate.RowsStoreEducations | djangoProject/resume_builder_django/resumesite/views.py:74-78 | the same, for the store before the skill loop |
| ResumeCreate.CreatedStoreSkills | djangoProject/resume_builder_django/resumesite/views.py:80-84 | every saved skill name is linked to the new resume, and only Skills and links for those names are added |
| ResumeCreate.CreateResumeKeepsFormRules | djangoProject/resume_builder_django/resumesite/views.py:57-85 | the create page keeps the form rules of every stored row: ordered dates, accepted years, accepted contact details |
| ResumeCreate.CreatedStoreKeepsFormRules | djangoProject/resume_builder_django/resumesite/views.py:63-84 | the same, for a write whose rows all passed their clean methods |
| ResumeCreate.CreatedStoreKeepsDates | djangoProject/resume_builder_django/resumesite/views.py:68-72 | all stored Experience dates stay ordered |
| ResumeCreate.CreatedStoreKeepsYears | djangoProject/resume_builder_django/resumesite/views.py:74-78 | all stored Education years stay accepted |
| ResumeCreate.SaveExperienceLoop | djangoProject/resume_builder_django/resumesite/views.py:68-72 | the in-place loop leaves the store that the experience fold specifies |
| ResumeCreate.SaveEducationLoop | djangoProject/resume_builder_django/resumesite/views.py:74-78 | the in-place loop leaves the store that the education fold specifies |
| ResumeCreate.SaveSkillStep | djangoProject/resume_builder_django/resumesite/views.py:82-84 | one in-place pass is `SaveSkill`, and the database stays valid |
| ResumeCreate.SaveSkillLoop | djangoProject/resume_builder_django/resumesite/views.py:80-84 | the in-place loop leaves the store that the skill fold specifies, and the database stays valid |
| ResumeCreate.CreateResumePost | djangoProject/resume_builder_django/resumesite/views.py:57-91 | the in-place handler returns what `CreateResume` specifies and leaves its store; the database stays valid |

## Left out

- Django form internals: widget parsing, the built-in email validator, `max_length` checks, and how a group detects untouched rows and reads its management form. Each row's parsed values, its DELETE flag and whether any such field-level error occurred are inputs (`Row.Filled(data, delete, fieldErrors)`; `formErrors` for the resume form).
- Authentication (`LoginRequiredMixin`, the login views): the requester is a parameter.
- The clock: `datetime.now().year` in `EducationForm.clean` is the `currentYear` parameter.
- Presentation and routing: `render`, templates, `redirect`/`reverse_lazy` targets, crispy-forms layouts, widget attributes, both `urls.py` files, the admin site, `config.py` and the `home` view. The GET side of the update and delete pages only renders.
- `transaction.atomic`: a valid submission is modelled as one store-to-store function. No failure occurs part-way through, so rollback is not modelled. Concurrent requests creating the same Skill are not modelled.
- The regular-expression engine: `\d` is ASCII digits and `$` is the exact end of the string. Python's Unicode digits and its match before a trailing newline are not modelled.
- `Resume.created_at`, and `ResumeSkill.proficiency`, which no page edits: new links always get an empty proficiency.
- Keys: one counter for every table instead of one per table. Keys are compared only for equality and freshness.
- ResumeDetail: the order among rows with equal keys is left to the database in Django. The contract states only that rows are ordered by the key and form a permutation. The model's insertion sort puts rows with equal keys in descending primary-key order.
- ExperiencesOf, EducationsOf: completeness is stated for stores whose keys were all issued (`IdsIssued`), which every valid store satisfies.
- SkillNamesOf: `resume.resume_skills.all()` has no `order_by` and `ResumeSkill` no default ordering, so the database picks the order of the skill list; the model lists the links in key order, and no property proved depends on that order.
- SkillNamesOf: requires a valid store, in which every link points at an existing Skill, as the foreign key guarantees.
- Django's `get_object_or_404` in the nested `form_valid` methods repeats the lookup that the access check has already made, so it is not modelled separately.

## Findings

| source | as written | input that shows it | evidently intended | confidence | as-written member | corrected member |
|---|---|---|---|---|---|---|
| djangoProject/resume_builder_django/resumesite/views.py:152-160 | `ExperienceCreateView` builds a plain ModelForm from `fields`, so `ExperienceForm.clean` never runs | start 2020-01-01, end 2019-01-01 on an owned resume: saved | the end-date rule of `ExperienceForm` applies on every page that stores an Experience | medium, not executed | Views.CreateExperienceAcceptsEndBeforeStart | Views.CheckedCreateExperience |
| djangoProject/resume_builder_django/resumesite/views.py:169-172 | `ExperienceUpdateView` likewise skips `ExperienceForm.clean` | the same dates submitted for an owned Experience: stored | the same rule on update | medium, not executed | Views.UpdateExperienceAcceptsEndBeforeStart | Views.CheckedUpdateExperience |
| djangoProject/resume_builder_django/resumesite/views.py:113-121 | `EducationCreateView` skips `EducationForm.clean` | start year 1800, end year 1804 in 2024: saved | the year rules of `EducationForm` apply | medium, not executed | Views.CreateEducationAcceptsYearOutOfRange | Views.CheckedCreateEducation |
| djangoProject/resume_builder_django/resumesite/views.py:130-133 | `EducationUpdateView` skips `EducationForm.clean` | start 2016, end 2015 submitted for an owned Education: stored | the same rules on update | medium, not executed | Views.UpdateEducationAcceptsEndBeforeStart | Views.CheckedUpdateEducation |
| djangoProject/resume_builder_django/resumesite/views.py:93-97 | `ResumeUpdateView` builds a plain ModelForm from `fields`, so `clean_contact_phone` and `clean_contact_email` never run | phone "call me" on an owned resume: stored | the contact checks of `ResumeForm` apply on update as on create | medium, not executed | Views.UpdateResumeAcceptsBadPhone | Views.CheckedUpdateResume |
| djangoProject/resume_builder_django/resumesite/forms.py:120-126 | `SkillForm` is a ModelForm over `Skill.name`, which is `unique=True`, so its uniqueness check rejects every row naming a stored Skill; `get_or_create` then only ever finds a Skill named earlier in the same submission | a second user's resume with skill "Python" after another resume has saved "Python": the page is shown again and nothing is saved | Skills are shared between resumes through `get_or_create`, so a stored name is accepted and its Skill linked | medium, not executed | ResumeCreate.StoredSkillNameRejected | ResumeCreate.SharedSkillsCreateResume |

=== FILE: create.dfy ===
/**
 * `ResumeCreateView`: the page that creates a resume together with its
 * Experience, Education and Skill rows in one submission. The GET side
 * shows an empty ResumeForm and three blank rows per group; the POST side
 * validates the form and the three groups and, only if all four pass,
 * saves the resume (owned by the requester), each filled row not flagged
 * DELETE, and for each skill row a Skill found or created by name and a
 * link found or created between the two.
 *
 * The three save loops are specified by left folds over the rows
 * (`SaveExperienceRows`, `SaveEducationRows`, `SaveSkillRows`); the whole
 * POST by `CreateResume`; `CreateResumePost` performs it in place on a
 * `Database`.
 */
module ResumeCreate {
  import opened Wrappers
  import opened Models
  import opened Forms
  import opened Persistence
  import opened Views

  // ---------------------------------------------------------------------------
  // Validation

  /** `EducationForm.clean` in year `currentYear`, as the group's row check. */
  function EducationClean(currentYear: int): (EducationData, bool) -> Option<FormError> {
    (d: EducationData, delete: bool) => CleanEducation(d, delete, currentYear)
  }

  /** Some stored Skill already has the name. */
  predicate NameTaken(st: Store, name: string) {
    exists sid :: sid in st.skills && st.skills[sid].name == name
  }

  /**
   * `SkillForm`'s own checks on one row: the name is required and, since
   * `Skill.name` is `unique=True`, the ModelForm's uniqueness check rejects
   * a name some stored Skill already has. The group clean does not compare
   * the rows with each other, so a name repeated within one submission passes.
   */
  function SkillAccepted(st: Store): SkillData -> bool {
    (d: SkillData) => SkillComplete(d) && !NameTaken(st, d.name)
  }

  /** `form.is_valid() and experience_formset.is_valid() and ...`, against the store `st`. */
  predicate SubmissionValid(st: Store, form: ResumeData, formErrors: bool, exps: seq<Row<ExperienceData>>,
                            edus: seq<Row<EducationData>>, skills: seq<Row<SkillData>>, currentYear: int) {
    && ResumeFormValid(form, formErrors)
    && GroupValid(exps, ExperienceComplete, CleanExperience)
    && GroupValid(edus, EducationComplete, EducationClean(currentYear))
    && GroupValid(skills, SkillAccepted(st), CleanSkill)
  }

  /** The same checks without the uniqueness check of `Skill.name`, so that stored Skills can be shared. */
  predicate SharedSkillsSubmissionValid(form: ResumeData, formErrors: bool, exps: seq<Row<ExperienceData>>,
                                        edus: seq<Row<EducationData>>, skills: seq<Row<SkillData>>, currentYear: int) {
    && ResumeFormValid(form, formErrors)
    && GroupValid(exps, ExperienceComplete, CleanExperience)
    && GroupValid(edus, EducationComplete, EducationClean(currentYear))
    && GroupValid(skills, SkillComplete, CleanSkill)
  }

  /** The two differ exactly on submissions whose saved skill rows name a stored Skill. */
  lemma SubmissionValidIff(st: Store, form: ResumeData, formErrors: bool, exps: seq<Row<ExperienceData>>,
                           edus: seq<Row<EducationData>>, skills: seq<Row<SkillData>>, currentYear: int)
    ensures SubmissionValid(st, form, formErrors, exps, edus, skills, currentYear) <==>
      && SharedSkillsSubmissionValid(form, formErrors, exps, edus, skills, currentYear)
      && forall i :: 0 <= i < |skills| && Saved(skills[i]) ==> !NameTaken(st, skills[i].data.name)
  {
    GroupValidIff(skills, SkillAccepted(st), CleanSkill);
    GroupValidIff(skills, SkillComplete, CleanSkill);
  }

  /** Every row the experience loop saves has its start date (a required field). */
  predicate ExperienceRowsComplete(rows: seq<Row<ExperienceData>>) {
    forall i :: 0 <= i < |rows| && Saved(rows[i]) ==> rows[i].data.startDate.Some?
  }

  /** Every row the education loop saves has both years (required fields). */
  predicate EducationRowsComplete(rows: seq<Row<EducationData>>) {
    forall i :: 0 <= i < |rows| && Saved(rows[i]) ==> rows[i].data.startYear.Some? && rows[i].data.endYear.Some?
  }

  /** A valid group meets what the loops need, and each row it saves passes its form's clean. */
  lemma ValidGroupsComplete(exps: seq<Row<ExperienceData>>, edus: seq<Row<EducationData>>, currentYear: int)
    requires GroupValid(exps, ExperienceComplete, CleanExperience)
    requires GroupValid(edus, EducationComplete, EducationClean(currentYear))
    ensures ExperienceRowsComplete(exps) && EducationRowsComplete(edus)
    ensures forall i :: 0 <= i < |exps| && Saved(exps[i]) ==> CleanExperience(exps[i].data, false) == None
    ensures forall i :: 0 <= i < |edus| && Saved(edus[i]) ==> CleanEducation(edus[i].data, false, currentYear) == None
  {
    GroupValidIff(exps, ExperienceComplete, CleanExperience);
    GroupValidIff(edus, EducationComplete, EducationClean(currentYear));
  }

  // ---------------------------------------------------------------------------
  // The save loops as folds

  /** The Experiences the loop creates for `rid`: one per saved row, in row order. */
  function NewExperiences(rid: Id, rows: seq<Row<ExperienceData>>): (xs: seq<Experience>)
    requires ExperienceRowsComplete(rows)
    decreases |rows|
  {
    if rows == [] then []
    else (if Saved(rows[0]) then [ExperienceRecord(rid, rows[0].data)] else []) + NewExperiences(rid, rows[1..])
  }

  /** The new Experiences are exactly the records of the saved rows. */
  lemma {:induction false} NewExperiencesOfSavedRows(rid: Id, rows: seq<Row<ExperienceData>>)
    requires ExperienceRowsComplete(rows)
    ensures forall x :: x in NewExperiences(rid, rows) <==>
      exists i :: 0 <= i < |rows| && Saved(rows[i]) && x == ExperienceRecord(rid, rows[i].data)
    decreases |rows|
  {
    if rows != [] {
      NewExperiencesOfSavedRows(rid, rows[1..]);
      assert forall i :: 1 <= i < |rows| ==> rows[i] == rows[1..][i - 1];
    }
  }

  /** One Experience per saved row. */
  lemma {:induction false} NewExperiencesCount(rid: Id, rows: seq<Row<ExperienceData>>)
    requires ExperienceRowsComplete(rows)
    ensures |NewExperiences(rid, rows)| == |SavedRows(rows)|
    decreases |rows|
  {
    if rows != [] {
      NewExperiencesCount(rid, rows[1..]);
    }
  }

  /** Saved rows that pass `ExperienceForm.clean` give Experiences whose dates are ordered. */
  lemma NewExperiencesOrdered(rid: Id, rows: seq<Row<ExperienceData>>)
    requires ExperienceRowsComplete(rows)
    requires forall i :: 0 <= i < |rows| && Saved(rows[i]) ==> CleanExperience(rows[i].data, false) == None
    ensures forall x :: x in NewExperiences(rid, rows) ==> DatesOrdered(x)
  {
    NewExperiencesOfSavedRows(rid, rows);
    forall x | x in NewExperiences(rid, rows)
      ensures DatesOrdered(x)
    {
      var i :| 0 <= i < |rows| && Saved(rows[i]) && x == ExperienceRecord(rid, rows[i].data);
      ExperienceRecordOrdered(rid, rows[i].data);
    }
  }

  /** The Educations the loop creates for `rid`: one per saved row, in row order. */
  function NewEducations(rid: Id, rows: seq<Row<EducationData>>): (es: seq<Education>)
    requires EducationRowsComplete(rows)
    decreases |rows|
  {
    if rows == [] then []
    else (if Saved(rows[0]) then [EducationRecord(rid, rows[0].data)] else []) + NewEducations(rid, rows[1..])
  }

  /** The new Educations are exactly the records of the saved rows. */
  lemma {:induction false} NewEducationsOfSavedRows(rid: Id, rows: seq<Row<EducationData>>)
    requires EducationRowsComplete(rows)
    ensures forall e :: e in NewEducations(rid, rows) <==>
      exists i :: 0 <= i < |rows| && Saved(rows[i]) && e == EducationRecord(rid, rows[i].data)
    decreases |rows|
  {
    if rows != [] {
      NewEducationsOfSavedRows(rid, rows[1..]);
      assert forall i :: 1 <= i < |rows| ==> rows[i] == rows[1..][i - 1];
    }
  }

  /** One Education per saved row. */
  lemma {:induction false} NewEducationsCount(rid: Id, rows: seq<Row<EducationData>>)
    requires EducationRowsComplete(rows)
    ensures |NewEducations(rid, rows)| == |SavedRows(rows)|
    decreases |rows|
  {
    if rows != [] {
      NewEducationsCount(rid, rows[1..]);
    }
  }

  /** Saved rows that pass `EducationForm.clean` give Educations whose years it accepts. */
  lemma NewEducationsAccepted(rid: Id, rows: seq<Row<EducationData>>, currentYear: int)
    requires EducationRowsComplete(rows)
    requires forall i :: 0 <= i < |rows| && Saved(rows[i]) ==> CleanEducation(rows[i].data, false, currentYear) == None
    ensures forall e :: e in NewEducations(rid, rows) ==> YearsAccepted(e, currentYear)
  {
    NewEducationsOfSavedRows(rid, rows);
    forall e | e in NewEducations(rid, rows)
      ensures YearsAccepted(e, currentYear)
    {
      var i :| 0 <= i < |rows| && Saved(rows[i]) && e == EducationRecord(rid, rows[i].data);
      EducationRecordAccepted(rid, rows[i].data, currentYear);
    }
  }

  /** The experience loop: each filled row not flagged DELETE becomes an Experience of `rid`. */
  function SaveExperienceRows(st: Store, rid: Id, rows: seq<Row<ExperienceData>>): (st': Store)
    requires ExperienceRowsComplete(rows)
    ensures st'.users == st.users && st'.resumes == st.resumes && st'.educations == st.educations
    ensures st'.skills == st.skills && st'.links == st.links
    ensures st'.nextId == st.nextId + |NewExperiences(rid, rows)|
    ensures forall id :: id in st'.experiences <==> id in st.experiences || st.nextId <= id < st'.nextId
    ensures forall id :: id in st.experiences && id < st.nextId ==> st'.experiences[id] == st.experiences[id]
    decreases |rows|
  {
    if rows == [] then st
    else
      var st1 := if Saved(rows[0]) then AddExperience(st, ExperienceRecord(rid, rows[0].data)) else st;
      SaveExperienceRows(st1, rid, rows[1..])
  }

  /** The experience loop keeps the store valid when the resume exists. */
  lemma {:induction false} SaveExperienceRowsKeepsValid(st: Store, rid: Id, rows: seq<Row<ExperienceData>>)
    requires ExperienceRowsComplete(rows)
    requires Valid(st) && rid in st.resumes
    ensures Valid(SaveExperienceRows(st, rid, rows))
    decreases |rows|
  {
    if rows != [] {
      if Saved(rows[0]) {
        AddExperienceKeepsValid(st, ExperienceRecord(rid, rows[0].data));
      }
      var st1 := if Saved(rows[0]) then AddExperience(st, ExperienceRecord(rid, rows[0].data)) else st;
      SaveExperienceRowsKeepsValid(st1, rid, rows[1..]);
    }
  }

  /** The first saved row is stored under the first key handed out. */
  lemma SaveExperienceRowsHead(st: Store, rid: Id, rows: seq<Row<ExperienceData>>)
    requires ExperienceRowsComplete(rows) && rows != [] && Saved(rows[0])
    ensures SaveExperienceRows(st, rid, rows).experiences[st.nextId] == ExperienceRecord(rid, rows[0].data)
  {
    var st1 := AddExperience(st, ExperienceRecord(rid, rows[0].data));
    assert SaveExperienceRows(st, rid, rows) == SaveExperienceRows(st1, rid, rows[1..]);
    assert st.nextId in st1.experiences && st.nextId < st1.nextId;
  }

  /**
   * What the experience loop stores: under each key it hands out, the new
   * Experience of that position (and, by the fold's own contract, no other new key).
   */
  lemma {:induction false} SaveExperienceRowsStores(st: Store, rid: Id, rows: seq<Row<ExperienceData>>, id: Id)
    requires ExperienceRowsComplete(rows)
    requires st.nextId <= id < st.nextId + |NewExperiences(rid, rows)|
    ensures SaveExperienceRows(st, rid, rows).experiences[id] == NewExperiences(rid, rows)[id - st.nextId]
    decreases |rows|
  {
    if !Saved(rows[0]) {
      assert SaveExperienceRows(st, rid, rows) == SaveExperienceRows(st, rid, rows[1..]);
      assert NewExperiences(rid, rows) == NewExperiences(rid, rows[1..]);
      SaveExperienceRowsStores(st, rid, rows[1..], id);
    } else if id == st.nextId {
      SaveExperienceRowsHead(st, rid, rows);
    } else {
      var st1 := AddExperience(st, ExperienceRecord(rid, rows[0].data));
      assert SaveExperienceRows(st, rid, rows) == SaveExperienceRows(st1, rid, rows[1..]);
      assert NewExperiences(rid, rows)[id - st.nextId] == NewExperiences(rid, rows[1..])[id - st1.nextId];
      SaveExperienceRowsStores(st1, rid, rows[1..], id);
    }
  }

  /** The education loop, likewise. */
  function SaveEducationRows(st: Store, rid: Id, rows: seq<Row<EducationData>>): (st': Store)
    requires EducationRowsComplete(rows)
    ensures st'.users == st.users && st'.resumes == st.resumes && st'.experiences == st.experiences
    ensures st'.skills == st.skills && st'.links == st.links
    ensures st'.nextId == st.nextId + |NewEducations(rid, rows)|
    ensures forall id :: id in st'.educations <==> id in st.educations || st.nextId <= id < st'.nextId
    ensures forall id :: id in st.educations && id < st.nextId ==> st'.educations[id] == st.educations[id]
    decreases |rows|
  {
    if rows == [] then st
    else
      var st1 := if Saved(rows[0]) then AddEducation(st, EducationRecord(rid, rows[0].data)) else st;
      SaveEducationRows(st1, rid, rows[1..])
  }

  /** The education loop keeps the store valid when the resume exists. */
  lemma {:induction false} SaveEducationRowsKeepsValid(st: Store, rid: Id, rows: seq<Row<EducationData>>)
    requires EducationRowsComplete(rows)
    requires Valid(st) && rid in st.resumes
    ensures Valid(SaveEducationRows(st, rid, rows))
    decreases |rows|
  {
    if rows != [] {
      if Saved(rows[0]) {
        AddEducationKeepsValid(st, EducationRecord(rid, rows[0].data));
      }
      var st1 := if Saved(rows[0]) then AddEducation(st, EducationRecord(rid, rows[0].data)) else st;
      SaveEducationRowsKeepsValid(st1, rid, rows[1..]);
    }
  }

  /** The first saved row is stored under the first key handed out. */
  lemma SaveEducationRowsHead(st: Store, rid: Id, rows: seq<Row<EducationData>>)
    requires EducationRowsComplete(rows) && rows != [] && Saved(rows[0])
    ensures SaveEducationRows(st, rid, rows).educations[st.nextId] == EducationRecord(rid, rows[0].data)
  {
    var st1 := AddEducation(st, EducationRecord(rid, rows[0].data));
    assert SaveEducationRows(st, rid, rows) == SaveEducationRows(st1, rid, rows[1..]);
    assert st.nextId in st1.educations && st.nextId < st1.nextId;
  }

  /**
   * What the education loop stores: under each key it hands out, the new
   * Education of that position (and, by the fold's own contract, no other new key).
   */
  lemma {:induction false} SaveEducationRowsStores(st: Store, rid: Id, rows: seq<Row<EducationData>>, id: Id)
    requires EducationRowsComplete(rows)
    requires st.nextId <= id < st.nextId + |NewEducations(rid, rows)|
    ensures SaveEducationRows(st, rid, rows).educations[id] == NewEducations(rid, rows)[id - st.nextId]
    decreases |rows|
  {
    if !Saved(rows[0]) {
      assert SaveEducationRows(st, rid, rows) == SaveEducationRows(st, rid, rows[1..]);
      assert NewEducations(rid, rows) == NewEducations(rid, rows[1..]);
      SaveEducationRowsStores(st, rid, rows[1..], id);
    } else if id == st.nextId {
      SaveEducationRowsHead(st, rid, rows);
    } else {
      var st1 := AddEducation(st, EducationRecord(rid, rows[0].data));
      assert SaveEducationRows(st, rid, rows) == SaveEducationRows(st1, rid, rows[1..]);
      assert NewEducations(rid, rows)[id - st.nextId] == NewEducations(rid, rows[1..])[id - st1.nextId];
      SaveEducationRowsStores(st1, rid, rows[1..], id);
    }
  }

  /** Some link of `rid` points at a Skill named `name`. */
  ghost predicate Linked(st: Store, rid: Id, name: string) {
    exists lid :: lid in st.links && st.links[lid].resume == rid && st.links[lid].skill in st.skills &&
      LinkedName(st, lid) == name
  }

  /** What the skill loop keeps: nothing old changes, and the new Skills and links are for the names saved. */
  ghost predicate SkillsGrown(st: Store, st': Store, rid: Id, names: set<string>) {
    && (forall id :: id in st.skills ==> id in st'.skills && st'.skills[id] == st.skills[id])
    && (forall id :: id in st.links ==> id in st'.links && st'.links[id] == st.links[id])
    && (forall id :: id in st'.skills && id !in st.skills ==> st'.skills[id].name in names)
    && (forall id :: id in st'.links && id !in st.links ==>
          st'.links[id].resume == rid && st'.links[id].skill in st'.skills && LinkedName(st', id) in names)
  }

  /**
   * One pass of the skill loop: `Skill.objects.get_or_create(name=name)`,
   * then `ResumeSkill.objects.get_or_create(resume=resume, skill=skill)`.
   */
  ghost function SaveSkill(st: Store, rid: Id, name: string): (st': Store)
    ensures st'.users == st.users && st'.resumes == st.resumes
    ensures st'.educations == st.educations && st'.experiences == st.experiences
    ensures st'.nextId >= st.nextId
  {
    var r1 := SkillGetOrCreate(st, name);
    LinkGetOrCreate(r1.0, rid, r1.1).0
  }

  /** Getting or creating the Skill adds at most a Skill of that name. */
  lemma SkillGetOrCreateGrows(st: Store, rid: Id, name: string)
    requires Valid(st)
    ensures SkillsGrown(st, SkillGetOrCreate(st, name).0, rid, {name})
  {
  }

  /** Getting or creating the link makes the Skill's name linked to the resume and adds nothing else. */
  lemma LinkGetOrCreateGrows(st: Store, rid: Id, sid: Id, name: string)
    requires Valid(st) && sid in st.skills && st.skills[sid].name == name
    ensures Linked(LinkGetOrCreate(st, rid, sid).0, rid, name)
    ensures SkillsGrown(st, LinkGetOrCreate(st, rid, sid).0, rid, {name})
  {
    var r := LinkGetOrCreate(st, rid, sid);
    assert LinkedName(r.0, r.1) == name;
  }

  /** One pass keeps the store valid, links the name to the resume and adds nothing else. */
  lemma SaveSkillKeepsValid(st: Store, rid: Id, name: string)
    requires Valid(st) && rid in st.resumes
    ensures Valid(SaveSkill(st, rid, name))
    ensures Linked(SaveSkill(st, rid, name), rid, name)
    ensures SkillsGrown(st, SaveSkill(st, rid, name), rid, {name})
  {
    var r1 := SkillGetOrCreate(st, name);
    SkillGetOrCreateKeepsValid(st, name);
    SkillGetOrCreateGrows(st, rid, name);
    LinkGetOrCreateKeepsValid(r1.0, rid, r1.1);
    LinkGetOrCreateGrows(r1.0, rid, r1.1, name);
    SkillsGrownTrans(st, r1.0, SaveSkill(st, rid, name), rid, {name}, {name});
    assert {name} + {name} == {name};
  }

  /** The names a skill group saves. */
  function SkillNames(rows: seq<Row<SkillData>>): set<string> {
    set d | d in SavedRows(rows) :: d.name
  }

  /** The skill loop. */
  ghost function SaveSkillRows(st: Store, rid: Id, rows: seq<Row<SkillData>>): (st': Store)
    ensures st'.users == st.users && st'.resumes == st.resumes
    ensures st'.educations == st.educations && st'.experiences == st.experiences
    ensures st'.nextId >= st.nextId
    decreases |rows|
  {
    if rows == [] then st
    else
      var st1 := if Saved(rows[0]) then SaveSkill(st, rid, rows[0].data.name) else st;
      SaveSkillRows(st1, rid, rows[1..])
  }

  /** The saved rows of a group from row `i` on: row `i`, if saved, then those after it. */
  lemma SavedRowsOfTail<T>(rows: seq<Row<T>>, i: nat)
    requires i < |rows|
    ensures SavedRows(rows[i..]) == (if Saved(rows[i]) then [rows[i].data] else []) + SavedRows(rows[i + 1..])
  {
    assert rows[i..][1..] == rows[i + 1..];
  }

  /** The names of a group are those of its first row, if saved, and those of the rest. */
  lemma SkillNamesOfTail(rows: seq<Row<SkillData>>)
    requires rows != []
    ensures SkillNames(rows) == (if Saved(rows[0]) then {rows[0].data.name} else {}) + SkillNames(rows[1..])
  {
    SavedRowsOfTail(rows, 0);
    assert rows[0..] == rows;
  }

  /** Growth composes: two steps add Skills and links for the names of either. */
  lemma SkillsGrownTrans(a: Store, b: Store, c: Store, rid: Id, n1: set<string>, n2: set<string>)
    requires SkillsGrown(a, b, rid, n1) && SkillsGrown(b, c, rid, n2)
    ensures SkillsGrown(a, c, rid, n1 + n2)
  {
  }

  /** The skill loop keeps the store valid and adds only Skills and links for the names saved. */
  lemma {:induction false} SaveSkillRowsGrows(st: Store, rid: Id, rows: seq<Row<SkillData>>)
    requires Valid(st) && rid in st.resumes
    ensures Valid(SaveSkillRows(st, rid, rows))
    ensures SkillsGrown(st, SaveSkillRows(st, rid, rows), rid, SkillNames(rows))
    decreases |rows|
  {
    if rows == [] {
      assert SkillsGrown(st, st, rid, {});
    } else {
      var st1 := if Saved(rows[0]) then SaveSkill(st, rid, rows[0].data.name) else st;
      var st' := SaveSkillRows(st1, rid, rows[1..]);
      if Saved(rows[0]) {
        SaveSkillKeepsValid(st, rid, rows[0].data.name);
      }
      SaveSkillRowsGrows(st1, rid, rows[1..]);
      SkillNamesOfTail(rows);
      if Saved(rows[0]) {
        SkillsGrownTrans(st, st1, st', rid, {rows[0].data.name}, SkillNames(rows[1..]));
      }
    }
  }

  /** A link survives any growth of the Skill and link tables. */
  lemma LinkedKept(a: Store, b: Store, rid: Id, name: string, names: set<string>)
    requires Linked(a, rid, name) && SkillsGrown(a, b, rid, names)
    ensures Linked(b, rid, name)
  {
    var lid :| lid in a.links && a.links[lid].resume == rid && a.links[lid].skill in a.skills &&
      LinkedName(a, lid) == name;
    assert b.links[lid] == a.links[lid];
    assert LinkedName(b, lid) == name;
  }

  /** After the skill loop every saved name is linked to the resume. */
  lemma {:induction false} SaveSkillRowsLinks(st: Store, rid: Id, rows: seq<Row<SkillData>>)
    requires Valid(st) && rid in st.resumes
    ensures forall n :: n in SkillNames(rows) ==> Linked(SaveSkillRows(st, rid, rows), rid, n)
    decreases |rows|
  {
    if rows != [] {
      SkillNamesOfTail(rows);
      if !Saved(rows[0]) {
        assert SaveSkillRows(st, rid, rows) == SaveSkillRows(st, rid, rows[1..]);
        SaveSkillRowsLinks(st, rid, rows[1..]);
      } else {
        var name := rows[0].data.name;
        var st1 := SaveSkill(st, rid, name);
        var st' := SaveSkillRows(st1, rid, rows[1..]);
        assert SaveSkillRows(st, rid, rows) == st';
        SaveSkillKeepsValid(st, rid, name);
        SaveSkillRowsLinks(st1, rid, rows[1..]);
        SaveSkillRowsGrows(st1, rid, rows[1..]);
        LinkedKept(st1, st', rid, name, SkillNames(rows[1..]));
      }
    }
  }

  /** Saving a name already linked to the resume changes nothing. */
  lemma SaveLinkedSkillChangesNothing(st: Store, rid: Id, name: string)
    requires Valid(st) && Linked(st, rid, name)
    ensures SaveSkill(st, rid, name) == st
  {
    var lid :| lid in st.links && st.links[lid].resume == rid && st.links[lid].skill in st.skills &&
      LinkedName(st, lid) == name;
    var sid := st.links[lid].skill;
    assert FindSkill(st, name) == Some(sid);
    assert FindLink(st, rid, sid) == Some(lid);
  }

  /** A skill group whose names are all linked already changes nothing. */
  lemma {:induction false} SaveLinkedSkillRowsChangesNothing(st: Store, rid: Id, rows: seq<Row<SkillData>>)
    requires Valid(st)
    requires forall n :: n in SkillNames(rows) ==> Linked(st, rid, n)
    ensures SaveSkillRows(st, rid, rows) == st
    decreases |rows|
  {
    if rows != [] {
      SkillNamesOfTail(rows);
      if Saved(rows[0]) {
        SaveLinkedSkillChangesNothing(st, rid, rows[0].data.name);
      }
      SaveLinkedSkillRowsChangesNothing(st, rid, rows[1..]);
    }
  }

  /** The skill loop is idempotent: running it again on its own result changes nothing. */
  lemma SaveSkillRowsIdempotent(st: Store, rid: Id, rows: seq<Row<SkillData>>)
    requires Valid(st) && rid in st.resumes
    ensures SaveSkillRows(SaveSkillRows(st, rid, rows), rid, rows) == SaveSkillRows(st, rid, rows)
  {
    SaveSkillRowsGrows(st, rid, rows);
    SaveSkillRowsLinks(st, rid, rows);
    SaveLinkedSkillRowsChangesNothing(SaveSkillRows(st, rid, rows), rid, rows);
  }

  /** A name submitted twice (say "Go", "Go") is saved as if submitted once. */
  lemma RepeatedSkillSavedOnce(st: Store, rid: Id, row: Row<SkillData>)
    requires Valid(st) && rid in st.resumes
    ensures SaveSkillRows(st, rid, [row, row]) == SaveSkillRows(st, rid, [row])
  {
    assert [row, row][1..] == [row];
    assert [row][1..] == [];
    if Saved(row) {
      SaveSkillKeepsValid(st, rid, row.data.name);
      SaveLinkedSkillChangesNothing(SaveSkill(st, rid, row.data.name), rid, row.data.name);
    }
  }

  /**
   * A Skill of the submitted name that already exists is reused: the Skill
   * table is untouched. As written, the create page reaches this only for a
   * name repeated within one submission (see `StoredSkillNameRejected`).
   */
  lemma ExistingSkillReused(st: Store, rid: Id, name: string)
    requires Valid(st) && rid in st.resumes
    requires exists sid :: sid in st.skills && st.skills[sid].name == name
    ensures SaveSkill(st, rid, name).skills == st.skills
  {
  }

  // ---------------------------------------------------------------------------
  // The POST handler

  /** How the POST ends: a redirect after the resume `resume` is created, or the page shown again with the input. */
  datatype CreateResult =
    | Created(resume: Id)
    | Rerender(form: ResumeData, experiences: seq<Row<ExperienceData>>,
               educations: seq<Row<EducationData>>, skills: seq<Row<SkillData>>)

  /** The empty page the GET side shows: an empty form and three blank rows per group. */
  function CreatePage(): (page: CreateResult)
    ensures page.Rerender? && |page.experiences| == |page.educations| == |page.skills| == Extra
    ensures SavedRows(page.experiences) == [] && SavedRows(page.educations) == [] && SavedRows(page.skills) == []
  {
    Rerender(ResumeData("", "", "", "", ""), BlankGroup(), BlankGroup(), BlankGroup())
  }

  /**
   * The first writes of a valid submission: the resume for `requester` under
   * the next key, then the experience and education loops for it.
   */
  function RowsStore(st: Store, requester: UserId, form: ResumeData, exps: seq<Row<ExperienceData>>,
                     edus: seq<Row<EducationData>>): Store
    requires ExperienceRowsComplete(exps) && EducationRowsComplete(edus)
  {
    var rid := st.nextId;
    var st1 := AddResume(st, ResumeRecord(requester, form)).0;
    var st2 := SaveExperienceRows(st1, rid, exps);
    SaveEducationRows(st2, rid, edus)
  }

  /** Everything a valid submission writes: `RowsStore`, then the skill loop. */
  ghost function CreatedStore(st: Store, requester: UserId, form: ResumeData, exps: seq<Row<ExperienceData>>,
                              edus: seq<Row<EducationData>>, skills: seq<Row<SkillData>>): Store
    requires ExperienceRowsComplete(exps) && EducationRowsComplete(edus)
  {
    SaveSkillRows(RowsStore(st, requester, form, exps, edus), st.nextId, skills)
  }

  /**
   * `ResumeCreateView.post`: on any invalid input the same input is shown
   * again and nothing is written; otherwise the resume and its rows are
   * written, all in one transaction, and the new resume's key is returned.
   */
  ghost function CreateResume(st: Store, requester: UserId, form: ResumeData, formErrors: bool,
                              exps: seq<Row<ExperienceData>>, edus: seq<Row<EducationData>>,
                              skills: seq<Row<SkillData>>, currentYear: int): (res: (CreateResult, Store))
    ensures !SubmissionValid(st, form, formErrors, exps, edus, skills, currentYear) ==>
      res == (Rerender(form, exps, edus, skills), st)
    ensures SubmissionValid(st, form, formErrors, exps, edus, skills, currentYear) ==>
      && ExperienceRowsComplete(exps) && EducationRowsComplete(edus)
      && res == (Created(st.nextId), CreatedStore(st, requester, form, exps, edus, skills))
  {
    if !SubmissionValid(st, form, formErrors, exps, edus, skills, currentYear) then
      (Rerender(form, exps, edus, skills), st)
    else
      ValidGroupsComplete(exps, edus, currentYear);
      (Created(st.nextId), CreatedStore(st, requester, form, exps, edus, skills))
  }

  /**
   * As written, a submission with a saved skill row naming a stored Skill
   * (one another resume already uses, say) is refused: the page is shown
   * again and nothing is written. So get-or-create never shares a stored
   * Skill between resumes.
   */
  lemma StoredSkillNameRejected(st: Store, requester: UserId, form: ResumeData, formErrors: bool,
                                exps: seq<Row<ExperienceData>>, edus: seq<Row<EducationData>>,
                                skills: seq<Row<SkillData>>, currentYear: int, i: nat)
    requires i < |skills| && Saved(skills[i]) && NameTaken(st, skills[i].data.name)
    ensures CreateResume(st, requester, form, formErrors, exps, edus, skills, currentYear) ==
      (Rerender(form, exps, edus, skills), st)
  {
    SubmissionValidIff(st, form, formErrors, exps, edus, skills, currentYear);
  }

  /**
   * The POST with stored Skills shared, as the skill loop's get-or-create
   * intends: the checks of `SharedSkillsSubmissionValid`, then the same writes.
   */
  ghost function SharedSkillsCreateResume(st: Store, requester: UserId, form: ResumeData, formErrors: bool,
                                          exps: seq<Row<ExperienceData>>, edus: seq<Row<EducationData>>,
                                          skills: seq<Row<SkillData>>, currentYear: int): (res: (CreateResult, Store))
    ensures !SharedSkillsSubmissionValid(form, formErrors, exps, edus, skills, currentYear) ==>
      res == (Rerender(form, exps, edus, skills), st)
    ensures SharedSkillsSubmissionValid(form, formErrors, exps, edus, skills, currentYear) ==>
      && ExperienceRowsComplete(exps) && EducationRowsComplete(edus)
      && res == (Created(st.nextId), CreatedStore(st, requester, form, exps, edus, skills))
  {
    if !SharedSkillsSubmissionValid(form, formErrors, exps, edus, skills, currentYear) then
      (Rerender(form, exps, edus, skills), st)
    else
      GroupValidIff(exps, ExperienceComplete, CleanExperience);
      GroupValidIff(edus, EducationComplete, EducationClean(currentYear));
      (Created(st.nextId), CreatedStore(st, requester, form, exps, edus, skills))
  }

  /** Sharing changes nothing for a submission the page as written accepts. */
  lemma SharedSkillsCreateExtends(st: Store, requester: UserId, form: ResumeData, formErrors: bool,
                                  exps: seq<Row<ExperienceData>>, edus: seq<Row<EducationData>>,
                                  skills: seq<Row<SkillData>>, currentYear: int)
    requires CreateResume(st, requester, form, formErrors, exps, edus, skills, currentYear).0.Created?
    ensures SharedSkillsCreateResume(st, requester, form, formErrors, exps, edus, skills, currentYear) ==
      CreateResume(st, requester, form, formErrors, exps, edus, skills, currentYear)
  {
    SubmissionValidIff(st, form, formErrors, exps, edus, skills, currentYear);
  }

  /**
   * With sharing, a saved skill row naming a stored Skill creates the resume
   * and links it to that very Skill; no second Skill of the name appears.
   */
  lemma SharedSkillsReuseStoredSkill(st: Store, requester: UserId, form: ResumeData, formErrors: bool,
                                     exps: seq<Row<ExperienceData>>, edus: seq<Row<EducationData>>,
                                     skills: seq<Row<SkillData>>, currentYear: int, i: nat, sid: Id)
    requires Valid(st) && requester in st.users
    requires SharedSkillsSubmissionValid(form, formErrors, exps, edus, skills, currentYear)
    requires i < |skills| && Saved(skills[i]) && sid in st.skills && st.skills[sid].name == skills[i].data.name
    ensures var res := SharedSkillsCreateResume(st, requester, form, formErrors, exps, edus, skills, currentYear);
      && res.0 == Created(st.nextId)
      && sid in res.1.skills && res.1.skills[sid] == st.skills[sid]
      && (forall id :: id in res.1.skills && res.1.skills[id].name == st.skills[sid].name ==> id == sid)
      && (exists lid :: lid in res.1.links && res.1.links[lid].resume == st.nextId && res.1.links[lid].skill == sid)
  {
    var res := SharedSkillsCreateResume(st, requester, form, formErrors, exps, edus, skills, currentYear);
    var st' := res.1;
    var name := skills[i].data.name;
    assert st' == CreatedStore(st, requester, form, exps, edus, skills);
    CreatedStoreAddsResume(st, requester, form, exps, edus, skills);
    CreatedStoreSkills(st, requester, form, exps, edus, skills);
    assert skills[i].data in SavedRows(skills);
    assert name in SkillNames(skills);
    var lid :| lid in st'.links && st'.links[lid].resume == st.nextId && st'.links[lid].skill in st'.skills &&
      LinkedName(st', lid) == name;
    assert st'.links[lid].skill == sid;
  }

  /**
   * A successful POST adds one resume, owned by the requester, under the
   * next key; it removes and alters no existing row, and the store stays valid.
   */
  lemma CreatedStoreAddsResume(st: Store, requester: UserId, form: ResumeData, exps: seq<Row<ExperienceData>>,
                               edus: seq<Row<EducationData>>, skills: seq<Row<SkillData>>)
    requires Valid(st) && requester in st.users
    requires ExperienceRowsComplete(exps) && EducationRowsComplete(edus)
    ensures var st' := CreatedStore(st, requester, form, exps, edus, skills);
      && Valid(st')
      && st'.users == st.users
      && st.nextId !in st.resumes
      && st'.resumes == st.resumes[st.nextId := ResumeRecord(requester, form)]
      && (forall id :: id in st.experiences ==> id in st'.experiences && st'.experiences[id] == st.experiences[id])
      && (forall id :: id in st.educations ==> id in st'.educations && st'.educations[id] == st.educations[id])
      && (forall id :: id in st.skills ==> id in st'.skills && st'.skills[id] == st.skills[id])
      && (forall id :: id in st.links ==> id in st'.links && st'.links[id] == st.links[id])
  {
    var rid := st.nextId;
    var st1 := AddResume(st, ResumeRecord(requester, form)).0;
    AddResumeKeepsValid(st, ResumeRecord(requester, form));
    var st2 := SaveExperienceRows(st1, rid, exps);
    SaveExperienceRowsKeepsValid(st1, rid, exps);
    var st3 := SaveEducationRows(st2, rid, edus);
    SaveEducationRowsKeepsValid(st2, rid, edus);
    SaveSkillRowsGrows(st3, rid, skills);
  }

  /**
   * The keys a successful POST gives new Experiences: one per saved row,
   * right after the resume's key, and no others.
   */
  lemma CreatedStoreExperienceKeys(st: Store, requester: UserId, form: ResumeData, exps: seq<Row<ExperienceData>>,
                                   edus: seq<Row<EducationData>>, skills: seq<Row<SkillData>>)
    requires ExperienceRowsComplete(exps) && EducationRowsComplete(edus)
    ensures var st' := CreatedStore(st, requester, form, exps, edus, skills);
      var rid := st.nextId;
      && |NewExperiences(rid, exps)| == |SavedRows(exps)|
      && (forall id :: id in st'.experiences <==> id in st.experiences || rid < id <= rid + |NewExperiences(rid, exps)|)
  {
    NewExperiencesCount(st.nextId, exps);
  }

  /** Those keys hold the records of the saved rows, in row order. */
  lemma CreatedStoreExperiences(st: Store, requester: UserId, form: ResumeData, exps: seq<Row<ExperienceData>>,
                                edus: seq<Row<EducationData>>, skills: seq<Row<SkillData>>)
    requires ExperienceRowsComplete(exps) && EducationRowsComplete(edus)
    ensures var st' := CreatedStore(st, requester, form, exps, edus, skills);
      var rid := st.nextId;
      var xs := NewExperiences(rid, exps);
      forall id :: rid < id <= rid + |xs| ==> st'.experiences[id] == xs[id - rid - 1]
  {
    var rows := RowsStore(st, requester, form, exps, edus);
    RowsStoreExperiences(st, requester, form, exps, edus);
    assert CreatedStore(st, requester, form, exps, edus, skills).experiences == rows.experiences;
  }

  /** The same, of the writes before the skill loop. */
  lemma RowsStoreExperiences(st: Store, requester: UserId, form: ResumeData, exps: seq<Row<ExperienceData>>,
                             edus: seq<Row<EducationData>>)
    requires ExperienceRowsComplete(exps) && EducationRowsComplete(edus)
    ensures var rid := st.nextId;
      var xs := NewExperiences(rid, exps);
      forall id :: rid < id <= rid + |xs| ==> RowsStore(st, requester, form, exps, edus).experiences[id] == xs[id - rid - 1]
  {
    var rid := st.nextId;
    var st1 := AddResume(st, ResumeRecord(requester, form)).0;
    var xs := NewExperiences(rid, exps);
    var st2 := SaveExperienceRows(st1, rid, exps);
    assert RowsStore(st, requester, form, exps, edus).experiences == st2.experiences;
    forall id | rid < id <= rid + |xs|
      ensures st2.experiences[id] == xs[id - rid - 1]
    {
      SaveExperienceRowsStores(st1, rid, exps, id);
      assert id - st1.nextId == id - rid - 1;
    }
  }

  /**
   * The keys a successful POST gives new Educations: one per saved row, right
   * after the new Experiences' keys, and no others.
   */
  lemma CreatedStoreEducationKeys(st: Store, requester: UserId, form: ResumeData, exps: seq<Row<ExperienceData>>,
                                  edus: seq<Row<EducationData>>, skills: seq<Row<SkillData>>)
    requires ExperienceRowsComplete(exps) && EducationRowsComplete(edus)
    ensures var st' := CreatedStore(st, requester, form, exps, edus, skills);
      var rid := st.nextId;
      var first := rid + 1 + |NewExperiences(rid, exps)|;
      && |NewEducations(rid, edus)| == |SavedRows(edus)|
      && (forall id :: id in st'.educations <==> id in st.educations || first <= id < first + |NewEducations(rid, edus)|)
  {
    var rid := st.nextId;
    var st1 := AddResume(st, ResumeRecord(requester, form)).0;
    var st2 := SaveExperienceRows(st1, rid, exps);
    assert st2.educations == st.educations;
    NewEducationsCount(rid, edus);
  }

  /** Those keys hold the records of the saved rows, in row order. */
  lemma CreatedStoreEducations(st: Store, requester: UserId, form: ResumeData, exps: seq<Row<ExperienceData>>,
                               edus: seq<Row<EducationData>>, skills: seq<Row<SkillData>>)
    requires ExperienceRowsComplete(exps) && EducationRowsComplete(edus)
    ensures var st' := CreatedStore(st, requester, form, exps, edus, skills);
      var rid := st.nextId;
      var first := rid + 1 + |NewExperiences(rid, exps)|;
      var es := NewEducations(rid, edus);
      forall id :: first <= id < first + |es| ==> st'.educations[id] == es[id - first]
  {
    RowsStoreEducations(st, requester, form, exps, edus);
  }

  /** The same, of the writes before the skill loop. */
  lemma {:induction false} RowsStoreEducations(st: Store, requester: UserId, form: ResumeData, exps: seq<Row<ExperienceData>>,
                            edus: seq<Row<EducationData>>)
    requires ExperienceRowsComplete(exps) && EducationRowsComplete(edus)
    ensures var rid := st.nextId;
      var first := rid + 1 + |NewExperiences(rid, exps)|;
      var es := NewEducations(rid, edus);
      forall id :: first <= id < first + |es| ==> RowsStore(st, requester, form, exps, edus).educations[id] == es[id - first]
  {
    var rid := st.nextId;
    var st1 := AddResume(st, ResumeRecord(requester, form)).0;
    var st2 := SaveExperienceRows(st1, rid, exps);
    var first := rid + 1 + |NewExperiences(rid, exps)|;
    var es := NewEducations(rid, edus);
    assert st2.nextId == first;
    forall id | first <= id < first + |es|
      ensures SaveEducationRows(st2, rid, edus).educations[id] == es[id - first]
    {
      SaveEducationRowsStores(st2, rid, edus, id);
      assert id - st2.nextId == id - first;
    }
  }

  /**
   * After a successful POST every saved skill name is linked to the new
   * resume, and the only Skills and links added are for those names and it.
   */
  lemma CreatedStoreSkills(st: Store, requester: UserId, form: ResumeData, exps: seq<Row<ExperienceData>>,
                           edus: seq<Row<EducationData>>, skills: seq<Row<SkillData>>)
    requires Valid(st) && requester in st.users
    requires ExperienceRowsComplete(exps) && EducationRowsComplete(edus)
    ensures var st' := CreatedStore(st, requester, form, exps, edus, skills);
      && (forall n :: n in SkillNames(skills) ==> Linked(st', st.nextId, n))
      && SkillsGrown(st, st', st.nextId, SkillNames(skills))
  {
    var rid := st.nextId;
    var st1 := AddResume(st, ResumeRecord(requester, form)).0;
    AddResumeKeepsValid(st, ResumeRecord(requester, form));
    var st2 := SaveExperienceRows(st1, rid, exps);
    SaveExperienceRowsKeepsValid(st1, rid, exps);
    var st3 := SaveEducationRows(st2, rid, edus);
    SaveEducationRowsKeepsValid(st2, rid, edus);
    SaveSkillRowsGrows(st3, rid, skills);
    SaveSkillRowsLinks(st3, rid, skills);
  }

  /**
   * The create page applies every form's clean method, so the rules they
   * enforce hold of every stored row after it if they held before.
   */
  lemma CreateResumeKeepsFormRules(st: Store, requester: UserId, form: ResumeData, formErrors: bool,
                                   exps: seq<Row<ExperienceData>>, edus: seq<Row<EducationData>>,
                                   skills: seq<Row<SkillData>>, currentYear: int)
    requires Valid(st) && requester in st.users
    ensures var st' := CreateResume(st, requester, form, formErrors, exps, edus, skills, currentYear).1;
      && (AllDatesOrdered(st) ==> AllDatesOrdered(st'))
      && (AllYearsAccepted(st, currentYear) ==> AllYearsAccepted(st', currentYear))
      && (AllContactsAccepted(st) ==> AllContactsAccepted(st'))
  {
    if SubmissionValid(st, form, formErrors, exps, edus, skills, currentYear) {
      ValidGroupsComplete(exps, edus, currentYear);
      CreatedStoreKeepsFormRules(st, requester, form, exps, edus, skills, currentYear);
    }
  }

  /** The form rules are kept by a write whose rows all pass their clean methods. */
  lemma CreatedStoreKeepsFormRules(st: Store, requester: UserId, form: ResumeData, exps: seq<Row<ExperienceData>>,
                                   edus: seq<Row<EducationData>>, skills: seq<Row<SkillData>>, currentYear: int)
    requires Valid(st) && requester in st.users
    requires ExperienceRowsComplete(exps) && EducationRowsComplete(edus)
    requires ContactsAccepted(ResumeRecord(requester, form))
    requires forall i :: 0 <= i < |exps| && Saved(exps[i]) ==> CleanExperience(exps[i].data, false) == None
    requires forall i :: 0 <= i < |edus| && Saved(edus[i]) ==> CleanEducation(edus[i].data, false, currentYear) == None
    ensures var st' := CreatedStore(st, requester, form, exps, edus, skills);
      && (AllDatesOrdered(st) ==> AllDatesOrdered(st'))
      && (AllYearsAccepted(st, currentYear) ==> AllYearsAccepted(st', currentYear))
      && (AllContactsAccepted(st) ==> AllContactsAccepted(st'))
  {
    CreatedStoreAddsResume(st, requester, form, exps, edus, skills);
    if AllDatesOrdered(st) {
      CreatedStoreKeepsDates(st, requester, form, exps, edus, skills);
    }
    if AllYearsAccepted(st, currentYear) {
      CreatedStoreKeepsYears(st, requester, form, exps, edus, skills, currentYear);
    }
  }

  /** Every experience row a write stores passes the Experience clean method, so all dates stay ordered. */
  lemma CreatedStoreKeepsDates(st: Store, requester: UserId, form: ResumeData, exps: seq<Row<ExperienceData>>,
                               edus: seq<Row<EducationData>>, skills: seq<Row<SkillData>>)
    requires Valid(st) && requester in st.users
    requires ExperienceRowsComplete(exps) && EducationRowsComplete(edus)
    requires forall i :: 0 <= i < |exps| && Saved(exps[i]) ==> CleanExperience(exps[i].data, false) == None
    requires AllDatesOrdered(st)
    ensures AllDatesOrdered(CreatedStore(st, requester, form, exps, edus, skills))
  {
    var st' := CreatedStore(st, requester, form, exps, edus, skills);
    var xs := NewExperiences(st.nextId, exps);
    CreatedStoreAddsResume(st, requester, form, exps, edus, skills);
    CreatedStoreExperienceKeys(st, requester, form, exps, edus, skills);
    CreatedStoreExperiences(st, requester, form, exps, edus, skills);
    NewExperiencesOrdered(st.nextId, exps);
    forall id | id in st'.experiences
      ensures DatesOrdered(st'.experiences[id])
    {
      if id !in st.experiences {
        assert st'.experiences[id] in xs;
      }
    }
  }

  /** Every education row a write stores passes the Education clean method, so all years stay accepted. */
  lemma CreatedStoreKeepsYears(st: Store, requester: UserId, form: ResumeData, exps: seq<Row<ExperienceData>>,
                               edus: seq<Row<EducationData>>, skills: seq<Row<SkillData>>, currentYear: int)
    requires Valid(st) && requester in st.users
    requires ExperienceRowsComplete(exps) && EducationRowsComplete(edus)
    requires forall i :: 0 <= i < |edus| && Saved(edus[i]) ==> CleanEducation(edus[i].data, false, currentYear) == None
    requires AllYearsAccepted(st, currentYear)
    ensures AllYearsAccepted(CreatedStore(st, requester, form, exps, edus, skills), currentYear)
  {
    var st' := CreatedStore(st, requester, form, exps, edus, skills);
    var es := NewEducations(st.nextId, edus);
    CreatedStoreAddsResume(st, requester, form, exps, edus, skills);
    CreatedStoreEducationKeys(st, requester, form, exps, edus, skills);
    CreatedStoreEducations(st, requester, form, exps, edus, skills);
    NewEducationsAccepted(st.nextId, edus, currentYear);
    forall id | id in st'.educations
      ensures YearsAccepted(st'.educations[id], currentYear)
    {
      if id !in st.educations {
        assert st'.educations[id] in es;
      }
    }
  }

  /** The experience loop of the handler. */
  method SaveExperienceLoop(db: Database, rid: Id, exps: seq<Row<ExperienceData>>)
    requires ExperienceRowsComplete(exps)
    modifies db
    ensures db.store == SaveExperienceRows(old(db.store), rid, exps)
  {
    ghost var st0 := db.store;
    assert exps[0..] == exps;
    var i := 0;
    while i < |exps|
      invariant 0 <= i <= |exps|
      invariant ExperienceRowsComplete(exps[i..])
      invariant SaveExperienceRows(db.store, rid, exps[i..]) == SaveExperienceRows(st0, rid, exps)
    {
      assert exps[i..][1..] == exps[i + 1..];
      if Saved(exps[i]) {
        db.SaveExperience(ExperienceRecord(rid, exps[i].data));
      }
      i := i + 1;
    }
  }

  /** The education loop of the handler. */
  method SaveEducationLoop(db: Database, rid: Id, edus: seq<Row<EducationData>>)
    requires EducationRowsComplete(edus)
    modifies db
    ensures db.store == SaveEducationRows(old(db.store), rid, edus)
  {
    ghost var st0 := db.store;
    assert edus[0..] == edus;
    var i := 0;
    while i < |edus|
      invariant 0 <= i <= |edus|
      invariant EducationRowsComplete(edus[i..])
      invariant SaveEducationRows(db.store, rid, edus[i..]) == SaveEducationRows(st0, rid, edus)
    {
      assert edus[i..][1..] == edus[i + 1..];
      if Saved(edus[i]) {
        db.SaveEducation(EducationRecord(rid, edus[i].data));
      }
      i := i + 1;
    }
  }

  /** One pass of the skill loop of the handler: get-or-create the Skill, then the link. */
  method SaveSkillStep(db: Database, rid: Id, name: string)
    requires db.Valid() && rid in db.store.resumes
    modifies db
    ensures db.store == SaveSkill(old(db.store), rid, name)
    ensures db.Valid()
  {
    ghost var before := db.store;
    var sid, _ := db.GetOrCreateSkill(name);
    SkillGetOrCreateKeepsValid(before, name);
    ghost var middle := db.store;
    var _, _ := db.GetOrCreateLink(rid, sid);
    LinkGetOrCreateKeepsValid(middle, rid, sid);
  }

  /** The skill loop of the handler. */
  method SaveSkillLoop(db: Database, rid: Id, skills: seq<Row<SkillData>>)
    requires db.Valid() && rid in db.store.resumes
    modifies db
    ensures db.store == SaveSkillRows(old(db.store), rid, skills)
    ensures db.Valid()
  {
    ghost var st0 := db.store;
    assert skills[0..] == skills;
    var i := 0;
    while i < |skills|
      invariant 0 <= i <= |skills|
      invariant SaveSkillRows(db.store, rid, skills[i..]) == SaveSkillRows(st0, rid, skills)
      invariant db.Valid() && rid in db.store.resumes
    {
      assert skills[i..][1..] == skills[i + 1..];
      if Saved(skills[i]) {
        SaveSkillStep(db, rid, skills[i].data.name);
      }
      i := i + 1;
    }
  }

  /** The handler, updating the database in place. */
  method CreateResumePost(db: Database, requester: UserId, form: ResumeData, formErrors: bool,
                          exps: seq<Row<ExperienceData>>, edus: seq<Row<EducationData>>,
                          skills: seq<Row<SkillData>>, currentYear: int)
    returns (result: CreateResult)
    requires db.Valid() && requester in db.store.users
    modifies db
    ensures (result, db.store) == CreateResume(old(db.store), requester, form, formErrors, exps, edus, skills, currentYear)
    ensures db.Valid()
  {
    var formOk := ResumeFormValid(form, formErrors);
    var expOk := GroupIsValid(exps, ExperienceComplete, CleanExperience);
    var eduOk := GroupIsValid(edus, EducationComplete, EducationClean(currentYear));
    var skillOk := GroupIsValid(skills, SkillAccepted(db.store), CleanSkill);
    if !(formOk && expOk && eduOk && skillOk) {
      return Rerender(form, exps, edus, skills);
    }
    ValidGroupsComplete(exps, edus, currentYear);
    ghost var st0 := db.store;
    var rid := db.SaveResume(ResumeRecord(requester, form));
    AddResumeKeepsValid(st0, ResumeRecord(requester, form));
    ghost var st1 := db.store;
    SaveExperienceLoop(db, rid, exps);
    SaveExperienceRowsKeepsValid(st1, rid, exps);
    ghost var st2 := db.store;
    SaveEducationLoop(db, rid, edus);
    SaveEducationRowsKeepsValid(st2, rid, edus);
    SaveSkillLoop(db, rid, skills);
    return Created(rid);
  }
}

=== FILE: forms.dfy ===
/**
 * The submission checks of resumesite/forms.py: the contact phone and email
 * patterns (as hand-written matchers), the cross-field checks of an
 * Experience row and an Education row, and the repeating-group ("formset")
 * validation that skips rows flagged for deletion.
 */
module Forms {
  import opened Wrappers
  import opened Models

  /** The messages the custom clean methods raise. */
  datatype FormError =
    | InvalidPhone         // "Enter a valid phone number (9-15 digits, may start with +)."
    | InvalidEmail         // "Enter a valid email address."
    | EndDateBeforeStart   // "End date cannot be before start date."
    | StartYearOutOfRange  // "Start year must be between 1900 and the current year."
    | EndYearOutOfRange    // "End year must be between 1900 and next year."
    | EndYearBeforeStart   // "End year cannot be before start year."

  // ---------------------------------------------------------------------------
  // Contact phone: `^\+?1?\d{9,15}$`

  predicate IsDigit(c: char) { '0' <= c <= '9' }

  predicate AllDigits(s: string) { forall i :: 0 <= i < |s| ==> IsDigit(s[i]) }

  /** Length of the run of ASCII digits at the front of `s`. */
  function LeadingDigits(s: string): (n: nat)
    ensures n <= |s|
    ensures forall i :: 0 <= i < n ==> IsDigit(s[i])
    ensures n < |s| ==> !IsDigit(s[n])
  {
    if |s| == 0 || !IsDigit(s[0]) then 0 else 1 + LeadingDigits(s[1..])
  }

  /** `\d{lo,hi}$`: the digit run reaches the end and has between lo and hi digits. */
  predicate DigitsToEnd(s: string, lo: nat, hi: nat) {
    LeadingDigits(s) == |s| && lo <= |s| <= hi
  }

  /** `1?\d{9,15}$`, trying the optional '1' first and then without it. */
  predicate OptionalOneThenDigits(s: string) {
    (|s| > 0 && s[0] == '1' && DigitsToEnd(s[1..], 9, 15)) || DigitsToEnd(s, 9, 15)
  }

  /** `^\+?1?\d{9,15}$`, trying the optional '+' first and then without it. */
  predicate PhonePattern(s: string) {
    (|s| > 0 && s[0] == '+' && OptionalOneThenDigits(s[1..])) || OptionalOneThenDigits(s)
  }

  /** What the pattern means: an optional '+', then 9 to 15 digits, or 16 digits starting with '1'. */
  predicate PhoneShape(s: string) {
    var t := if |s| > 0 && s[0] == '+' then s[1..] else s;
    AllDigits(t) && (9 <= |t| <= 15 || (|t| == 16 && t[0] == '1'))
  }

  lemma {:induction false} DigitsToEndIff(s: string, lo: nat, hi: nat)
    ensures DigitsToEnd(s, lo, hi) <==> AllDigits(s) && lo <= |s| <= hi
  {
  }

  lemma {:induction false} PhonePatternIff(s: string)
    ensures PhonePattern(s) <==> PhoneShape(s)
  {
    DigitsToEndIff(s, 9, 15);
    if |s| > 0 {
      DigitsToEndIff(s[1..], 9, 15);
      assert !IsDigit('+');
      if |s| > 1 {
        DigitsToEndIff(s[1..][1..], 9, 15);
        DigitsToEndIff(s[2..], 9, 15);
        assert s[1..][1..] == s[2..];
        assert AllDigits(s[1..]) <==> IsDigit(s[1]) && AllDigits(s[2..]);
        if s[0] == '+' {
          assert OptionalOneThenDigits(s) == false;
        } else {
          assert AllDigits(s) <==> IsDigit(s[0]) && AllDigits(s[1..]);
        }
      }
    }
  }

  /** `ResumeForm.clean_contact_phone`: the phone is returned unchanged or rejected. */
  function CleanContactPhone(phone: string): (r: Result<string, FormError>)
    ensures r.Ok? <==> PhoneShape(phone)
    ensures r.Ok? ==> r.value == phone
    ensures r.Err? ==> r.error == InvalidPhone
  {
    PhonePatternIff(phone);
    if PhonePattern(phone) then Ok(phone) else Err(InvalidPhone)
  }

  // ---------------------------------------------------------------------------
  // Contact email: `re.match(r"[^@]+@[^@]+\.[^@]+", email)`, a prefix match

  /** Length of the run of non-'@' characters at the front of `s` (`[^@]*`). */
  function NonAtRun(s: string): (n: nat)
    ensures n <= |s|
    ensures '@' !in s[..n]
    ensures n < |s| ==> s[n] == '@'
  {
    if |s| == 0 || s[0] == '@' then 0
    else
      var n := 1 + NonAtRun(s[1..]);
      assert s[..n] == [s[0]] + s[1..][..n - 1];
      n
  }

  /** Whether some position in [lo, hi) of `s` holds a '.'. */
  predicate DotBetween(s: string, lo: nat, hi: nat)
    requires hi <= |s|
    decreases hi - lo
  {
    lo < hi && (s[lo] == '.' || DotBetween(s, lo + 1, hi))
  }

  lemma {:induction false} DotBetweenIff(s: string, lo: nat, hi: nat)
    requires hi <= |s|
    ensures DotBetween(s, lo, hi) <==> exists j :: lo <= j < hi && s[j] == '.'
    decreases hi - lo
  {
    if lo < hi {
      DotBetweenIff(s, lo + 1, hi);
    }
  }

  /**
   * The matcher: the local part is the run up to the first '@' and must be
   * non-empty; after the '@', the run of non-'@' characters must hold a '.'
   * with at least one character before it and one after it.
   */
  predicate EmailMatcher(s: string) {
    var a := NonAtRun(s);
    1 <= a < |s| &&
    var rest := s[a + 1..];
    var n := NonAtRun(rest);
    n >= 2 && DotBetween(rest, 1, n - 1)
  }

  /**
   * The regular expression matches the prefix s[..k] as local part s[..i],
   * '@' at i, domain s[i+1..j], '.' at j and top-level part s[j+1..k], each
   * part non-empty and free of '@'.
   */
  ghost predicate EmailShapeAt(s: string, i: int, j: int, k: int) {
    && 0 < i && i + 1 < j && j + 1 < k <= |s|
    && '@' !in s[..i] && s[i] == '@'
    && '@' !in s[i + 1..j] && s[j] == '.'
    && '@' !in s[j + 1..k]
  }

  ghost predicate EmailPrefixMatches(s: string) {
    exists i, j, k :: EmailShapeAt(s, i, j, k)
  }

  /** The first '@' of a string is where its non-'@' run ends. */
  lemma FirstAtIsRunEnd(s: string, i: int)
    requires 0 <= i < |s| && '@' !in s[..i] && s[i] == '@'
    ensures NonAtRun(s) == i
  {
    var n := NonAtRun(s);
    assert forall k :: 0 <= k < i ==> s[..i][k] == s[k];
    assert forall k :: 0 <= k < n ==> s[..n][k] == s[k];
  }

  lemma EmailMatcherSound(s: string)
    requires EmailMatcher(s)
    ensures EmailPrefixMatches(s)
  {
    var a := NonAtRun(s);
    var rest := s[a + 1..];
    var n := NonAtRun(rest);
    DotBetweenIff(rest, 1, n - 1);
    var d :| 1 <= d < n - 1 && rest[d] == '.';
    var i, j, k := a, a + 1 + d, a + 3 + d;
    assert s[i + 1..j] == rest[..n][..d];
    assert s[j + 1..k] == rest[..n][d + 1..d + 2];
    assert EmailShapeAt(s, i, j, k);
  }

  lemma EmailMatcherComplete(s: string, i: int, j: int, k: int)
    requires EmailShapeAt(s, i, j, k)
    ensures EmailMatcher(s)
  {
    FirstAtIsRunEnd(s, i);
    var rest := s[i + 1..];
    var d := j - i - 1;
    assert rest[..d + 2] == s[i + 1..j] + [s[j]] + s[j + 1..j + 2];
    assert forall m :: 0 <= m < d + 2 ==> rest[m] == rest[..d + 2][m];
    var n := NonAtRun(rest);
    assert n >= d + 2;
    DotBetweenIff(rest, 1, n - 1);
    assert rest[d] == '.';
  }

  /** The hand-written matcher accepts exactly the strings the pattern matches a prefix of. */
  lemma EmailMatcherCorrect(s: string)
    ensures EmailMatcher(s) <==> EmailPrefixMatches(s)
  {
    if EmailMatcher(s) {
      EmailMatcherSound(s);
    }
    if EmailPrefixMatches(s) {
      var i, j, k :| EmailShapeAt(s, i, j, k);
      EmailMatcherComplete(s, i, j, k);
    }
  }

  /** A string without '@' is rejected. */
  lemma EmailNeedsAt(s: string)
    requires '@' !in s
    ensures !EmailPrefixMatches(s)
  {
    forall i, j, k ensures !EmailShapeAt(s, i, j, k) {
      if 0 <= i < |s| {
        assert s[i] in s;
      }
    }
  }

  /** A string with no '.' after its first '@' is rejected. */
  lemma EmailNeedsDotAfterAt(local: string, domain: string)
    requires '@' !in local && '.' !in domain
    ensures !EmailPrefixMatches(local + "@" + domain)
  {
    var s := local + "@" + domain;
    forall i, j, k ensures !EmailShapeAt(s, i, j, k) {
      if 0 <= i < |local| {
        assert s[i] == local[i] && local[i] in local;
      } else if |local| < i <= |s| {
        assert s[..i][|local|] == '@';
      } else if i == |local| && |local| < j < |s| {
        assert s[j] == domain[j - |local| - 1] && domain[j - |local| - 1] in domain;
      }
    }
  }

  /** Text after a matching prefix does not matter. */
  lemma EmailAllowsTrailing(s: string, tail: string)
    requires EmailPrefixMatches(s)
    ensures EmailPrefixMatches(s + tail)
  {
    var i, j, k :| EmailShapeAt(s, i, j, k);
    var t := s + tail;
    assert t[..i] == s[..i];
    assert t[i + 1..j] == s[i + 1..j];
    assert t[j + 1..k] == s[j + 1..k];
    assert EmailShapeAt(t, i, j, k);
  }

  /** `ResumeForm.clean_contact_email`: the email is returned unchanged or rejected. */
  function CleanContactEmail(email: string): (r: Result<string, FormError>)
    ensures r.Ok? <==> EmailPrefixMatches(email)
    ensures r.Ok? ==> r.value == email
    ensures r.Err? ==> r.error == InvalidEmail
  {
    EmailMatcherCorrect(email);
    if EmailMatcher(email) then Ok(email) else Err(InvalidEmail)
  }

  // ---------------------------------------------------------------------------
  // ResumeForm

  /** The parsed values of a ResumeForm. */
  datatype ResumeData = ResumeData(
    title: string,
    summary: string,
    contactEmail: string,
    contactPhone: string,
    contactAddress: string)

  /** Every Resume field is declared without `blank=True`, so each is required. */
  predicate ResumeComplete(d: ResumeData) {
    d.title != "" && d.summary != "" && d.contactEmail != "" && d.contactPhone != "" && d.contactAddress != ""
  }

  /**
   * `ResumeForm.is_valid()`: no field-level error (`fieldErrors` stands for
   * parsing, length and the built-in email validator), every required field
   * filled in, and both custom clean methods accept.
   */
  predicate ResumeFormValid(d: ResumeData, fieldErrors: bool)
    ensures ResumeFormValid(d, fieldErrors) <==>
      !fieldErrors && ResumeComplete(d) && PhoneShape(d.contactPhone) && EmailPrefixMatches(d.contactEmail)
  {
    !fieldErrors && ResumeComplete(d) && CleanContactPhone(d.contactPhone).Ok? && CleanContactEmail(d.contactEmail).Ok?
  }

  // ---------------------------------------------------------------------------
  // ExperienceForm

  /** The parsed values of an Experience row; a date that is absent or did not parse is None. */
  datatype ExperienceData = ExperienceData(
    jobTitle: string,
    company: string,
    startDate: Option<Date>,
    endDate: Option<Date>,
    description: string)

  /** Required Experience fields: all but `end_date`. */
  predicate ExperienceComplete(d: ExperienceData) {
    d.jobTitle != "" && d.company != "" && d.startDate.Some? && d.description != ""
  }

  /** `ExperienceForm.clean`; `delete` is the row's DELETE flag. */
  function CleanExperience(d: ExperienceData, delete: bool): (r: Option<FormError>)
    ensures delete ==> r == None
    ensures d.endDate == None ==> r == None
    ensures r != None <==>
      !delete && d.startDate.Some? && d.endDate.Some? && DateBefore(d.endDate.value, d.startDate.value)
    ensures r != None ==> r == Some(EndDateBeforeStart)
  {
    if delete then None
    else if d.startDate.Some? && d.endDate.Some? && d.endDate.value.ordinal < d.startDate.value.ordinal
    then Some(EndDateBeforeStart)
    else None
  }

  // ---------------------------------------------------------------------------
  // EducationForm

  /** The parsed values of an Education row; a year that is absent or did not parse is None. */
  datatype EducationData = EducationData(
    school: string,
    degree: string,
    startYear: Option<nat>,
    endYear: Option<nat>,
    score: string)

  /** Required Education fields: all but `score`. */
  predicate EducationComplete(d: EducationData) {
    d.school != "" && d.degree != "" && d.startYear.Some? && d.endYear.Some?
  }

  const MinYear: nat := 1900

  /** Python truthiness of an optional year: None and 0 are false. */
  predicate Truthy(y: Option<nat>) { y.Some? && y.value != 0 }

  /** The year rules, each applying only when the years it mentions are truthy. */
  predicate StartYearInRange(d: EducationData, currentYear: int) {
    Truthy(d.startYear) ==> MinYear <= d.startYear.value <= currentYear
  }
  predicate EndYearInRange(d: EducationData, currentYear: int) {
    Truthy(d.endYear) ==> MinYear <= d.endYear.value <= currentYear + 1
  }
  predicate YearsOrdered(d: EducationData) {
    Truthy(d.startYear) && Truthy(d.endYear) ==> d.startYear.value <= d.endYear.value
  }

  /**
   * `EducationForm.clean` with the current year as a parameter: the rules
   * are checked in order and the first one broken is the error.
   */
  function CleanEducation(d: EducationData, delete: bool, currentYear: int): (r: Option<FormError>)
    ensures delete ==> r == None
    ensures r == None <==>
      delete || (StartYearInRange(d, currentYear) && EndYearInRange(d, currentYear) && YearsOrdered(d))
    ensures r == Some(StartYearOutOfRange) <==> !delete && !StartYearInRange(d, currentYear)
    ensures r == Some(EndYearOutOfRange) <==>
      !delete && StartYearInRange(d, currentYear) && !EndYearInRange(d, currentYear)
    ensures r == Some(EndYearBeforeStart) <==>
      !delete && StartYearInRange(d, currentYear) && EndYearInRange(d, currentYear) && !YearsOrdered(d)
  {
    if delete then None
    else
      var start := d.startYear.Some? && d.startYear.value != 0;
      var end := d.endYear.Some? && d.endYear.value != 0;
      if start && (d.startYear.value < 1900 || d.startYear.value > currentYear) then Some(StartYearOutOfRange)
      else if end && (d.endYear.value < 1900 || d.endYear.value > currentYear + 1) then Some(EndYearOutOfRange)
      else if start && end && d.endYear.value < d.startYear.value then Some(EndYearBeforeStart)
      else None
  }

  /** An accepted row with both years set has 1900 <= start <= end <= current + 1. */
  lemma EducationAcceptedBounds(d: EducationData, currentYear: int)
    requires CleanEducation(d, false, currentYear) == None
    requires Truthy(d.startYear) && Truthy(d.endYear)
    ensures MinYear <= d.startYear.value <= d.endYear.value <= currentYear + 1
    ensures d.startYear.value <= currentYear
  {
  }

  /** A year of 0 is treated exactly like a missing year. */
  lemma EducationZeroYearIsAbsent(d: EducationData, delete: bool, currentYear: int)
    ensures CleanEducation(d.(startYear := Some(0)), delete, currentYear)
         == CleanEducation(d.(startYear := None), delete, currentYear)
    ensures CleanEducation(d.(endYear := Some(0)), delete, currentYear)
         == CleanEducation(d.(endYear := None), delete, currentYear)
  {
  }

  /** With no start year, only the end-year range can fail. */
  lemma EducationNoStartYear(d: EducationData, currentYear: int)
    requires !Truthy(d.startYear)
    ensures CleanEducation(d, false, currentYear) in {None, Some(EndYearOutOfRange)}
  {
  }

  /**
   * The initial values `EducationForm.__init__` gives the two year fields:
   * a field without a (truthy) initial value starts at 2015 / 2016.
   */
  class EducationFormInitial {
    var startYear: Option<nat>
    var endYear: Option<nat>

    constructor (declaredStart: Option<nat>, declaredEnd: Option<nat>)
      ensures startYear == if Truthy(declaredStart) then declaredStart else Some(2015)
      ensures endYear == if Truthy(declaredEnd) then declaredEnd else Some(2016)
      ensures Truthy(startYear) && Truthy(endYear)
    {
      startYear := declaredStart;
      endYear := declaredEnd;
      new;
      if !Truthy(startYear) {
        startYear := Some(2015);
      }
      if !Truthy(endYear) {
        endYear := Some(2016);
      }
    }
  }

  // ---------------------------------------------------------------------------
  // SkillForm

  datatype SkillData = SkillData(name: string)

  /** `Skill.name` is required. */
  predicate SkillComplete(d: SkillData) { d.name != "" }

  /** SkillForm has no clean method of its own. */
  function CleanSkill(d: SkillData, delete: bool): Option<FormError> { None }

  // ---------------------------------------------------------------------------
  // Repeating groups (BaseSkipDeleteFormSet)

  /**
   * One row of a repeating group as submitted: a blank row (an extra form
   * left untouched, which Django does not validate and whose cleaned data is
   * empty) or a filled row with its parsed values, its DELETE flag, and
   * whether any field-level check (parsing, length) failed.
   */
  datatype Row<T> = Blank | Filled(data: T, delete: bool, fieldErrors: bool)

  /** The rows the aggregate save writes: `cleaned_data` is non-empty and DELETE is not set. */
  predicate Saved<T>(row: Row<T>) { row.Filled? && !row.delete }

  /** Each group offers three blank rows (`extra=3`) and per-row deletion (`can_delete=True`). */
  const Extra: nat := 3
  const CanDelete: bool := true

  /** The rows a freshly displayed group holds. */
  function BlankGroup<T>(): (rows: seq<Row<T>>)
    ensures |rows| == Extra
    ensures SavedRows(rows) == []
  {
    [Blank, Blank, Blank]
  }

  /** `_should_delete_form`. */
  predicate ShouldDelete<T>(row: Row<T>) { CanDelete && row.Filled? && row.delete }

  /** The row's clean method run on its cleaned data; a blank row's empty data never fails. */
  function RowClean<T>(row: Row<T>, clean: (T, bool) -> Option<FormError>): Option<FormError> {
    match row
    case Blank => None
    case Filled(d, del, _) => clean(d, del)
  }

  /** The row's own errors: a field-level error, a missing required value or its clean failing. */
  predicate RowHasErrors<T>(row: Row<T>, complete: T -> bool, clean: (T, bool) -> Option<FormError>) {
    row.Filled? && (row.fieldErrors || !complete(row.data) || clean(row.data, row.delete).Some?)
  }

  /** `any(self.errors)`: the errors the formset collects are those of the rows not being deleted. */
  predicate AnyRowErrors<T>(rows: seq<Row<T>>, complete: T -> bool, clean: (T, bool) -> Option<FormError>) {
    exists i :: 0 <= i < |rows| && !ShouldDelete(rows[i]) && RowHasErrors(rows[i], complete, clean)
  }

  /** The first error met when re-running `clean` on every row not being deleted. */
  function FirstCleanError<T>(rows: seq<Row<T>>, clean: (T, bool) -> Option<FormError>): Option<FormError> {
    if rows == [] then None
    else if !ShouldDelete(rows[0]) && RowClean(rows[0], clean).Some? then RowClean(rows[0], clean)
    else FirstCleanError(rows[1..], clean)
  }

  /** `BaseSkipDeleteFormSet.clean`: nothing when a row already has errors, else the first re-run failure. */
  function SkipDeleteClean<T>(rows: seq<Row<T>>, complete: T -> bool, clean: (T, bool) -> Option<FormError>): Option<FormError> {
    if AnyRowErrors(rows, complete, clean) then None else FirstCleanError(rows, clean)
  }

  /**
   * `BaseSkipDeleteFormSet.clean` as the loop it is: return at once if a row
   * has errors, skip the rows being deleted, and stop at the first row whose
   * clean raises.
   */
  method CleanGroup<T>(rows: seq<Row<T>>, complete: T -> bool, clean: (T, bool) -> Option<FormError>)
    returns (err: Option<FormError>)
    ensures err == SkipDeleteClean(rows, complete, clean)
  {
    if AnyRowErrors(rows, complete, clean) {
      return None;
    }
    var i := 0;
    while i < |rows|
      invariant 0 <= i <= |rows|
      invariant FirstCleanError(rows[i..], clean) == FirstCleanError(rows, clean)
    {
      var row := rows[i];
      assert rows[i..][1..] == rows[i + 1..];
      i := i + 1;
      if ShouldDelete(row) {
        continue;
      }
      var e := RowClean(row, clean);
      if e.Some? {
        return e;
      }
    }
    return None;
  }

  /**
   * The group-level clean never reports anything: it only runs again checks
   * that every row not being deleted has already passed.
   */
  lemma {:induction false} SkipDeleteCleanAddsNothing<T>(rows: seq<Row<T>>, complete: T -> bool, clean: (T, bool) -> Option<FormError>)
    ensures SkipDeleteClean(rows, complete, clean) == None
  {
    if !AnyRowErrors(rows, complete, clean) {
      NoRowErrorsNoCleanError(rows, complete, clean);
    }
  }

  lemma {:induction false} NoRowErrorsNoCleanError<T>(rows: seq<Row<T>>, complete: T -> bool, clean: (T, bool) -> Option<FormError>)
    requires !AnyRowErrors(rows, complete, clean)
    ensures FirstCleanError(rows, clean) == None
  {
    if rows != [] {
      assert !(!ShouldDelete(rows[0]) && RowHasErrors(rows[0], complete, clean));
      assert !AnyRowErrors(rows[1..], complete, clean) by {
        forall i | 0 <= i < |rows[1..]|
          ensures !(!ShouldDelete(rows[1..][i]) && RowHasErrors(rows[1..][i], complete, clean))
        {
          assert rows[1..][i] == rows[i + 1];
        }
      }
      NoRowErrorsNoCleanError(rows[1..], complete, clean);
    }
  }

  /** `formset.is_valid()`: no row not being deleted has errors and the group clean raised nothing. */
  predicate GroupValid<T>(rows: seq<Row<T>>, complete: T -> bool, clean: (T, bool) -> Option<FormError>) {
    !AnyRowErrors(rows, complete, clean) && SkipDeleteClean(rows, complete, clean) == None
  }

  /** A group is valid exactly when every filled row not flagged for deletion passes every check. */
  lemma GroupValidIff<T>(rows: seq<Row<T>>, complete: T -> bool, clean: (T, bool) -> Option<FormError>)
    ensures GroupValid(rows, complete, clean) <==>
      forall i :: 0 <= i < |rows| && Saved(rows[i]) ==>
        !rows[i].fieldErrors && complete(rows[i].data) && clean(rows[i].data, false) == None
  {
    SkipDeleteCleanAddsNothing(rows, complete, clean);
  }

  /**
   * A row flagged for deletion never blocks the group: replacing any row by a
   * deletion-flagged one, whatever its values and errors, keeps a valid
   * group valid.
   */
  lemma DeletedRowNeverBlocks<T>(rows: seq<Row<T>>, complete: T -> bool, clean: (T, bool) -> Option<FormError>,
                                 i: nat, d: T, fieldErrors: bool)
    requires i < |rows|
    requires GroupValid(rows, complete, clean)
    ensures GroupValid(rows[i := Filled(d, true, fieldErrors)], complete, clean)
  {
    var rows' := rows[i := Filled(d, true, fieldErrors)];
    GroupValidIff(rows, complete, clean);
    GroupValidIff(rows', complete, clean);
  }

  /** `formset.is_valid()` as a method: the rows' own errors, then `BaseSkipDeleteFormSet.clean`. */
  method GroupIsValid<T>(rows: seq<Row<T>>, complete: T -> bool, clean: (T, bool) -> Option<FormError>)
    returns (ok: bool)
    ensures ok == GroupValid(rows, complete, clean)
    ensures ok <==>
      forall i :: 0 <= i < |rows| && Saved(rows[i]) ==>
        !rows[i].fieldErrors && complete(rows[i].data) && clean(rows[i].data, false) == None
  {
    var err := CleanGroup(rows, complete, clean);
    ok := !AnyRowErrors(rows, complete, clean) && err == None;
    GroupValidIff(rows, complete, clean);
  }

  /** The rows the aggregate save writes: filled and not flagged DELETE, in order. */
  function SavedRows<T>(rows: seq<Row<T>>): (ds: seq<T>)
    ensures |ds| <= |rows|
    ensures forall i :: 0 <= i < |rows| && Saved(rows[i]) ==> rows[i].data in ds
    ensures forall d :: d in ds ==> exists i :: 0 <= i < |rows| && Saved(rows[i]) && rows[i].data == d
  {
    if rows == [] then []
    else
      var tail := SavedRows(rows[1..]);
      assert forall i :: 1 <= i < |rows| ==> rows[i] == rows[1..][i - 1];
      if Saved(rows[0]) then [rows[0].data] + tail else tail
  }

  /** A single row contributes its data exactly when it is saved. */
  lemma SavedRowsOfOne<T>(row: Row<T>)
    ensures SavedRows([row]) == if Saved(row) then [row.data] else []
  {
  }

  /**
   * The saved rows of two groups of rows one after the other are those of
   * the first, then those of the second: with the one-row case this fixes
   * the order and the number of the saved rows.
   */
  lemma {:induction false} SavedRowsAppend<T>(a: seq<Row<T>>, b: seq<Row<T>>)
    ensures SavedRows(a + b) == SavedRows(a) + SavedRows(b)
    decreases |a|
  {
    if a != [] {
      assert (a + b)[1..] == a[1..] + b;
      SavedRowsAppend(a[1..], b);
    } else {
      assert a + b == b;
    }
  }
}

=== FILE: models.dfy ===
/**
 * The record store of the resume builder: Users (referenced by id only),
 * Resumes, their Educations and Experiences, the global Skill table and the
 * (Resume, Skill) links, with the database constraints declared in
 * resumesite/models.py as a validity predicate and the ON DELETE CASCADE
 * foreign keys as store-to-store delete functions.
 */
module Models {
  import opened Wrappers

  /** Primary keys. All tables draw from one counter, so ids are opaque. */
  type Id = nat
  type UserId = nat

  /**
   * A calendar date, identified by its day number in the proleptic Gregorian
   * calendar; two dates compare as their day numbers do.
   */
  datatype Date = Date(ordinal: int)

  predicate DateBefore(a: Date, b: Date) { a.ordinal < b.ordinal }

  datatype Resume = Resume(
    owner: UserId,
    title: string,
    summary: string,
    contactEmail: string,
    contactPhone: string,
    contactAddress: string)

  datatype Education = Education(
    resume: Id,
    school: string,
    degree: string,
    startYear: nat,            // PositiveIntegerField: never negative
    endYear: nat,
    score: string)

  datatype Experience = Experience(
    resume: Id,
    jobTitle: string,
    company: string,
    startDate: Date,           // NOT NULL
    endDate: Option<Date>,     // NULL means "current position"
    description: string)

  datatype Skill = Skill(name: string)

  datatype ResumeSkill = ResumeSkill(resume: Id, skill: Id, proficiency: string)

  /** The tables, keyed by primary key, and the next key to hand out. */
  datatype Store = Store(
    users: set<UserId>,
    resumes: map<Id, Resume>,
    educations: map<Id, Education>,
    experiences: map<Id, Experience>,
    skills: map<Id, Skill>,
    links: map<Id, ResumeSkill>,
    nextId: nat)

  /** `Skill.name` is declared `unique=True`. */
  predicate SkillNamesUnique(st: Store) {
    forall a, b :: a in st.skills && b in st.skills && st.skills[a].name == st.skills[b].name ==> a == b
  }

  /** `ResumeSkill` declares `unique_together = ('resume', 'skill')`. */
  predicate LinksUnique(st: Store) {
    forall a, b ::
      a in st.links && b in st.links &&
      st.links[a].resume == st.links[b].resume && st.links[a].skill == st.links[b].skill
      ==> a == b
  }

  /** Every foreign key points at an existing row. */
  predicate ReferencesExist(st: Store) {
    && (forall id :: id in st.resumes ==> st.resumes[id].owner in st.users)
    && (forall id :: id in st.educations ==> st.educations[id].resume in st.resumes)
    && (forall id :: id in st.experiences ==> st.experiences[id].resume in st.resumes)
    && (forall id :: id in st.links ==> st.links[id].resume in st.resumes && st.links[id].skill in st.skills)
  }

  /** Every key in use was handed out before `nextId`. */
  predicate IdsIssued(st: Store) {
    && (forall id :: id in st.resumes ==> id < st.nextId)
    && (forall id :: id in st.educations ==> id < st.nextId)
    && (forall id :: id in st.experiences ==> id < st.nextId)
    && (forall id :: id in st.skills ==> id < st.nextId)
    && (forall id :: id in st.links ==> id < st.nextId)
  }

  predicate Valid(st: Store) {
    SkillNamesUnique(st) && LinksUnique(st) && ReferencesExist(st) && IdsIssued(st)
  }

  /** Ids of the resumes owned by user `u`. */
  function OwnedBy(st: Store, u: UserId): (ids: set<Id>)
    ensures forall id :: id in ids <==> id in st.resumes && st.resumes[id].owner == u
  {
    set id | id in st.resumes && st.resumes[id].owner == u
  }

  /** The rows of a child table whose parent resume (read by `parent`) is not in `gone`. */
  function KeepRows<V>(m: map<Id, V>, parent: V -> Id, gone: set<Id>): (m': map<Id, V>)
    ensures forall id :: id in m' <==> id in m && parent(m[id]) !in gone
    ensures forall id :: id in m' ==> m'[id] == m[id]
  {
    map id | id in m && parent(m[id]) !in gone :: m[id]
  }

  /**
   * Deleting the resumes `gone`: each Education, Experience and ResumeSkill
   * row whose resume is deleted goes with it (`on_delete=models.CASCADE`);
   * every other row and every Skill stays exactly as it was.
   */
  function DeleteResumes(st: Store, gone: set<Id>): (st': Store)
    ensures st'.users == st.users && st'.skills == st.skills && st'.nextId == st.nextId
    ensures st'.resumes.Keys == st.resumes.Keys - gone
    ensures forall id :: id in st'.resumes ==> st'.resumes[id] == st.resumes[id]
    ensures forall id :: id in st'.educations <==> id in st.educations && st.educations[id].resume !in gone
    ensures forall id :: id in st'.educations ==> st'.educations[id] == st.educations[id]
    ensures forall id :: id in st'.experiences <==> id in st.experiences && st.experiences[id].resume !in gone
    ensures forall id :: id in st'.experiences ==> st'.experiences[id] == st.experiences[id]
    ensures forall id :: id in st'.links <==> id in st.links && st.links[id].resume !in gone
    ensures forall id :: id in st'.links ==> st'.links[id] == st.links[id]
    ensures Valid(st) ==> Valid(st')
  {
    st.(resumes := st.resumes - gone,
        educations := KeepRows(st.educations, (e: Education) => e.resume, gone),
        experiences := KeepRows(st.experiences, (x: Experience) => x.resume, gone),
        links := KeepRows(st.links, (l: ResumeSkill) => l.resume, gone))
  }

  /**
   * Deleting one resume (`ResumeDeleteView`, or `Resume.delete()`): the
   * cascade of `DeleteResumes` for that one resume, so every other row stays.
   */
  function DeleteResume(st: Store, rid: Id): (st': Store)
    ensures st' == DeleteResumes(st, {rid})
    ensures rid !in st'.resumes
    ensures forall id :: id in st'.educations ==> st'.educations[id].resume != rid
    ensures forall id :: id in st'.experiences ==> st'.experiences[id].resume != rid
    ensures forall id :: id in st'.links ==> st'.links[id].resume != rid
    ensures Valid(st) ==> Valid(st')
  {
    DeleteResumes(st, {rid})
  }

  /** Deleting a User removes all of that user's resumes and, through them, their rows. */
  function DeleteUser(st: Store, u: UserId): (st': Store)
    ensures st'.users == st.users - {u}
    ensures forall id :: id in st'.resumes ==> st'.resumes[id].owner != u
    ensures forall id :: id in st.resumes && st.resumes[id].owner != u ==> id in st'.resumes
    ensures forall id :: id in st'.resumes ==> id in st.resumes && st'.resumes[id] == st.resumes[id]
    ensures st'.skills == st.skills && st'.nextId == st.nextId
    ensures forall id :: id in st'.educations <==> id in st.educations && st.educations[id].resume !in OwnedBy(st, u)
    ensures forall id :: id in st'.educations ==> st'.educations[id] == st.educations[id]
    ensures forall id :: id in st'.experiences <==> id in st.experiences && st.experiences[id].resume !in OwnedBy(st, u)
    ensures forall id :: id in st'.experiences ==> st'.experiences[id] == st.experiences[id]
    ensures forall id :: id in st'.links <==> id in st.links && st.links[id].resume !in OwnedBy(st, u)
    ensures forall id :: id in st'.links ==> st'.links[id] == st.links[id]
    ensures Valid(st) ==> Valid(st')
  {
    DeleteResumes(st, OwnedBy(st, u)).(users := st.users - {u})
  }

  /** Deleting a Skill removes the links to it (`on_delete=models.CASCADE`) and no Resume. */
  function DeleteSkill(st: Store, sid: Id): (st': Store)
    ensures st'.skills.Keys == st.skills.Keys - {sid}
    ensures forall id :: id in st'.skills ==> st'.skills[id] == st.skills[id]
    ensures forall id :: id in st'.links <==> id in st.links && st.links[id].skill != sid
    ensures forall id :: id in st'.links ==> st'.links[id] == st.links[id]
    ensures st'.resumes == st.resumes && st'.educations == st.educations && st'.experiences == st.experiences
    ensures Valid(st) ==> Valid(st')
  {
    st.(skills := st.skills - {sid},
        links := map id | id in st.links && st.links[id].skill != sid :: st.links[id])
  }

  /**
   * Deleting a set of resumes at once is the same as deleting one of them and
   * then the rest: the cascade of a User deletion is the cascade of each of
   * that user's resumes.
   */
  lemma {:induction false} DeleteResumesStepwise(st: Store, rid: Id, rest: set<Id>)
    ensures DeleteResumes(DeleteResume(st, rid), rest) == DeleteResumes(st, rest + {rid})
  {
    KeepRowsTwice(st.educations, (e: Education) => e.resume, {rid}, rest);
    KeepRowsTwice(st.experiences, (x: Experience) => x.resume, {rid}, rest);
    KeepRowsTwice(st.links, (l: ResumeSkill) => l.resume, {rid}, rest);
    assert st.resumes - {rid} - rest == st.resumes - (rest + {rid});
  }

  lemma KeepRowsTwice<V>(m: map<Id, V>, parent: V -> Id, first: set<Id>, later: set<Id>)
    ensures KeepRows(KeepRows(m, parent, first), parent, later) == KeepRows(m, parent, later + first)
  {
    var a := KeepRows(KeepRows(m, parent, first), parent, later);
    var b := KeepRows(m, parent, later + first);
    assert a.Keys == b.Keys;
  }

  /** `Education.__str__`: "{degree} at {school}". */
  function EducationStr(e: Education): (s: string)
    ensures |s| == |e.degree| + 4 + |e.school|
    ensures s[..|e.degree|] == e.degree
    ensures s[|e.degree|..|e.degree| + 4] == " at "
    ensures s[|e.degree| + 4..] == e.school
  {
    e.degree + " at " + e.school
  }

  /** `Experience.__str__`: "{job_title} at {company}". */
  function ExperienceStr(x: Experience): (s: string)
    ensures |s| == |x.jobTitle| + 4 + |x.company|
    ensures s[..|x.jobTitle|] == x.jobTitle
    ensures s[|x.jobTitle|..|x.jobTitle| + 4] == " at "
    ensures s[|x.jobTitle| + 4..] == x.company
  {
    x.jobTitle + " at " + x.company
  }

  /** `Resume.__str__`: "{title} ({username})", the owner's user name given as a parameter. */
  function ResumeStr(r: Resume, username: string): (s: string)
    ensures |s| == |r.title| + |username| + 3
    ensures s[..|r.title|] == r.title
    ensures s[|r.title|..|r.title| + 2] == " ("
    ensures s[|r.title| + 2..|s| - 1] == username
    ensures s[|s| - 1] == ')'
  {
    r.title + " (" + username + ")"
  }
}

=== FILE: ordering.dfy ===
/**
 * The query shapes the read views use: scanning a table by primary key for
 * the rows that pass a filter, and ordering rows by a key, largest first
 * (`order_by('-field')`).
 */
module Ordering {

  /** The keys below `n` of `m` whose row passes `keep`, in increasing key order. */
  function KeysWhere<V>(m: map<nat, V>, n: nat, keep: V -> bool): (ids: seq<nat>)
    ensures forall i :: 0 <= i < |ids| ==> ids[i] in m && ids[i] < n && keep(m[ids[i]])
    ensures forall i, j :: 0 <= i < j < |ids| ==> ids[i] < ids[j]
    ensures forall id :: id in m && id < n && keep(m[id]) ==> id in ids
  {
    if n == 0 then []
    else
      var ids := KeysWhere(m, n - 1, keep);
      if n - 1 in m && keep(m[n - 1]) then ids + [n - 1] else ids
  }

  /** The rows of `m` picked by `KeysWhere`, in the same order. */
  function RowsWhere<V(==)>(m: map<nat, V>, n: nat, keep: V -> bool): (rows: seq<V>)
    ensures |rows| == |KeysWhere(m, n, keep)|
    ensures forall i :: 0 <= i < |rows| ==> rows[i] == m[KeysWhere(m, n, keep)[i]]
    ensures forall v :: v in rows ==> keep(v) && v in m.Values
    ensures forall id :: id in m && id < n && keep(m[id]) ==> m[id] in rows
  {
    var ids := KeysWhere(m, n, keep);
    var rows := seq(|ids|, i requires 0 <= i < |ids| => m[ids[i]]);
    assert forall id :: id in m && id < n && keep(m[id]) ==> exists i :: 0 <= i < |ids| && ids[i] == id;
    rows
  }

  /** Ordered by `key`, largest first: each element's key is at least its successor's. */
  predicate SortedDesc<T>(xs: seq<T>, key: T -> int) {
    forall i :: 0 <= i < |xs| - 1 ==> key(xs[i]) >= key(xs[i + 1])
  }

  /** Neighbour-wise order gives order between any two positions. */
  lemma {:induction false} SortedDescPairwise<T>(xs: seq<T>, key: T -> int, i: int, j: int)
    requires SortedDesc(xs, key)
    requires 0 <= i <= j < |xs|
    ensures key(xs[i]) >= key(xs[j])
    decreases j - i
  {
    if i < j {
      SortedDescPairwise(xs, key, i + 1, j);
    }
  }

  /** Puts `x` into an ordered sequence after every element whose key is at least its own. */
  function InsertDesc<T>(x: T, xs: seq<T>, key: T -> int): (r: seq<T>)
    requires SortedDesc(xs, key)
    ensures SortedDesc(r, key)
    ensures multiset(r) == multiset(xs) + multiset{x}
    ensures |r| == |xs| + 1
    ensures r[0] == x || (xs != [] && r[0] == xs[0])
  {
    if xs == [] then [x]
    else if key(xs[0]) >= key(x) then
      assert SortedDesc(xs[1..], key);
      var tail := InsertDesc(x, xs[1..], key);
      InsertDescBehindHead(x, xs, tail, key);
      [xs[0]] + tail
    else
      SortedDescCons(x, xs, key);
      [x] + xs
  }

  /** The step of `InsertDesc` that keeps the head: the head, then `x` inserted into the rest. */
  lemma InsertDescBehindHead<T>(x: T, xs: seq<T>, tail: seq<T>, key: T -> int)
    requires SortedDesc(xs, key) && xs != [] && key(xs[0]) >= key(x)
    requires SortedDesc(tail, key) && multiset(tail) == multiset(xs[1..]) + multiset{x} && tail != []
    requires tail[0] == x || (|xs| > 1 && tail[0] == xs[1])
    ensures SortedDesc([xs[0]] + tail, key)
    ensures multiset([xs[0]] + tail) == multiset(xs) + multiset{x}
  {
    assert xs == [xs[0]] + xs[1..];
    SortedDescCons(xs[0], tail, key);
  }

  /** An element whose key is at least that of an ordered sequence's head can go in front of it. */
  lemma SortedDescCons<T>(x: T, xs: seq<T>, key: T -> int)
    requires SortedDesc(xs, key)
    requires xs != [] ==> key(x) >= key(xs[0])
    ensures SortedDesc([x] + xs, key)
  {
    var r := [x] + xs;
    forall i | 0 <= i < |r| - 1
      ensures key(r[i]) >= key(r[i + 1])
    {
      if i > 0 {
        assert r[i] == xs[i - 1] && r[i + 1] == xs[i];
      }
    }
  }

  /** Insertion sort, largest key first: an ordered permutation of the input. */
  function SortDesc<T>(xs: seq<T>, key: T -> int): (r: seq<T>)
    ensures SortedDesc(r, key)
    ensures multiset(r) == multiset(xs)
    ensures |r| == |xs|
  {
    if xs == [] then []
    else
      assert xs == [xs[0]] + xs[1..];
      InsertDesc(xs[0], SortDesc(xs[1..], key), key)
  }
}

=== FILE: persistence.dfy ===
/**
 * The writes the views make through the ORM: `save()` of a new row, which
 * takes the next key, and `get_or_create` on Skill (by name) and on
 * ResumeSkill (by resume and skill). Each is a function from store to store;
 * `Database` holds the store and performs them in place.
 */
module Persistence {
  import opened Wrappers
  import opened Models

  /** `resume.save()` of a new Resume: it gets the next key. */
  function AddResume(st: Store, r: Resume): (res: (Store, Id))
    ensures IdsIssued(st) ==> res.1 !in st.resumes
    ensures res.1 == st.nextId && res.0.nextId == st.nextId + 1
    ensures res.0.resumes == st.resumes[res.1 := r]
    ensures res.0.users == st.users && res.0.educations == st.educations && res.0.experiences == st.experiences
    ensures res.0.skills == st.skills && res.0.links == st.links
  {
    var id := st.nextId;
    (st.(resumes := st.resumes[id := r], nextId := id + 1), id)
  }

  /** A new Resume owned by an existing user keeps the store valid. */
  lemma AddResumeKeepsValid(st: Store, r: Resume)
    requires Valid(st) && r.owner in st.users
    ensures Valid(AddResume(st, r).0)
  {
  }

  /** `exp.save()` of a new Experience row. */
  function AddExperience(st: Store, x: Experience): (st': Store)
    ensures IdsIssued(st) ==> st.nextId !in st.experiences
    ensures st'.experiences == st.experiences[st.nextId := x]
    ensures st'.users == st.users && st'.resumes == st.resumes && st'.educations == st.educations
    ensures st'.skills == st.skills && st'.links == st.links
    ensures st'.nextId == st.nextId + 1
  {
    st.(experiences := st.experiences[st.nextId := x], nextId := st.nextId + 1)
  }

  /** A new Experience of an existing resume keeps the store valid. */
  lemma AddExperienceKeepsValid(st: Store, x: Experience)
    requires Valid(st) && x.resume in st.resumes
    ensures Valid(AddExperience(st, x))
  {
  }

  /** `edu.save()` of a new Education row. */
  function AddEducation(st: Store, e: Education): (st': Store)
    ensures IdsIssued(st) ==> st.nextId !in st.educations
    ensures st'.educations == st.educations[st.nextId := e]
    ensures st'.users == st.users && st'.resumes == st.resumes && st'.experiences == st.experiences
    ensures st'.skills == st.skills && st'.links == st.links
    ensures st'.nextId == st.nextId + 1
  {
    st.(educations := st.educations[st.nextId := e], nextId := st.nextId + 1)
  }

  /** A new Education of an existing resume keeps the store valid. */
  lemma AddEducationKeepsValid(st: Store, e: Education)
    requires Valid(st) && e.resume in st.resumes
    ensures Valid(AddEducation(st, e))
  {
  }

  /** The Skill named `name`, if there is one (unique when the store is valid). */
  ghost function FindSkill(st: Store, name: string): (r: Option<Id>)
    ensures r.Some? ==> r.value in st.skills && st.skills[r.value].name == name
    ensures r.None? <==> forall id :: id in st.skills ==> st.skills[id].name != name
  {
    if exists id :: id in st.skills && st.skills[id].name == name then
      Some(var id :| id in st.skills && st.skills[id].name == name; id)
    else None
  }

  /** The ResumeSkill linking `rid` to `sid`, if there is one. */
  ghost function FindLink(st: Store, rid: Id, sid: Id): (r: Option<Id>)
    ensures r.Some? ==> r.value in st.links && st.links[r.value].resume == rid && st.links[r.value].skill == sid
    ensures r.None? <==> forall id :: id in st.links ==> !(st.links[id].resume == rid && st.links[id].skill == sid)
  {
    if exists id :: id in st.links && st.links[id].resume == rid && st.links[id].skill == sid then
      Some(var id :| id in st.links && st.links[id].resume == rid && st.links[id].skill == sid; id)
    else None
  }

  /**
   * `Skill.objects.get_or_create(name=name)`: the existing Skill of that name
   * is reused and the store left alone; otherwise one Skill row is added.
   */
  ghost function SkillGetOrCreate(st: Store, name: string): (res: (Store, Id))
    ensures res.1 in res.0.skills && res.0.skills[res.1].name == name
    ensures FindSkill(st, name).Some? ==> res == (st, FindSkill(st, name).value)
    ensures FindSkill(st, name).None? ==>
      (IdsIssued(st) ==> res.1 !in st.skills) && res.0.skills == st.skills[res.1 := Skill(name)]
    ensures res.0.users == st.users && res.0.resumes == st.resumes && res.0.educations == st.educations
    ensures res.0.experiences == st.experiences && res.0.links == st.links
  {
    match FindSkill(st, name)
    case Some(id) => (st, id)
    case None =>
      var id := st.nextId;
      (st.(skills := st.skills[id := Skill(name)], nextId := id + 1), id)
  }

  /** Getting or creating a Skill keeps the store valid: names stay unique. */
  lemma SkillGetOrCreateKeepsValid(st: Store, name: string)
    requires Valid(st)
    ensures Valid(SkillGetOrCreate(st, name).0)
  {
  }

  /**
   * `ResumeSkill.objects.get_or_create(resume=resume, skill=skill)`: an
   * existing link is reused; otherwise one link with an empty proficiency is added.
   */
  ghost function LinkGetOrCreate(st: Store, rid: Id, sid: Id): (res: (Store, Id))
    ensures res.1 in res.0.links && res.0.links[res.1].resume == rid && res.0.links[res.1].skill == sid
    ensures FindLink(st, rid, sid).Some? ==> res == (st, FindLink(st, rid, sid).value)
    ensures FindLink(st, rid, sid).None? ==>
      (IdsIssued(st) ==> res.1 !in st.links) && res.0.links == st.links[res.1 := ResumeSkill(rid, sid, "")]
    ensures res.0.users == st.users && res.0.resumes == st.resumes && res.0.educations == st.educations
    ensures res.0.experiences == st.experiences && res.0.skills == st.skills
  {
    match FindLink(st, rid, sid)
    case Some(id) => (st, id)
    case None =>
      var id := st.nextId;
      (st.(links := st.links[id := ResumeSkill(rid, sid, "")], nextId := id + 1), id)
  }

  /** Getting or creating a link between an existing resume and Skill keeps the store valid. */
  lemma LinkGetOrCreateKeepsValid(st: Store, rid: Id, sid: Id)
    requires Valid(st) && rid in st.resumes && sid in st.skills
    ensures Valid(LinkGetOrCreate(st, rid, sid).0)
  {
  }

  /** The database: one store, updated in place by each write. */
  class Database {
    var store: Store

    ghost predicate Valid()
      reads this
    {
      Models.Valid(store)
    }

    constructor (users: set<UserId>)
      ensures store == Store(users, map[], map[], map[], map[], map[], 0)
      ensures Valid()
    {
      store := Store(users, map[], map[], map[], map[], map[], 0);
    }

    method SaveResume(r: Resume) returns (rid: Id)
      modifies this
      ensures (store, rid) == AddResume(old(store), r)
    {
      rid := store.nextId;
      store := store.(resumes := store.resumes[rid := r], nextId := rid + 1);
    }

    method SaveExperience(x: Experience)
      modifies this
      ensures store == AddExperience(old(store), x)
    {
      store := store.(experiences := store.experiences[store.nextId := x], nextId := store.nextId + 1);
    }

    method SaveEducation(e: Education)
      modifies this
      ensures store == AddEducation(old(store), e)
    {
      store := store.(educations := store.educations[store.nextId := e], nextId := store.nextId + 1);
    }

    method GetOrCreateSkill(name: string) returns (sid: Id, created: bool)
      requires Valid()
      modifies this
      ensures (store, sid) == SkillGetOrCreate(old(store), name)
      ensures created <==> FindSkill(old(store), name).None?
    {
      if exists id :: id in store.skills && store.skills[id].name == name {
        sid :| sid in store.skills && store.skills[sid].name == name;
        created := false;
      } else {
        sid := store.nextId;
        store := store.(skills := store.skills[sid := Skill(name)], nextId := sid + 1);
        created := true;
      }
    }

    method GetOrCreateLink(rid: Id, sid: Id) returns (lid: Id, created: bool)
      requires Valid()
      modifies this
      ensures (store, lid) == LinkGetOrCreate(old(store), rid, sid)
      ensures created <==> FindLink(old(store), rid, sid).None?
    {
      if exists id :: id in store.links && store.links[id].resume == rid && store.links[id].skill == sid {
        lid :| lid in store.links && store.links[lid].resume == rid && store.links[lid].skill == sid;
        created := false;
      } else {
        lid := store.nextId;
        store := store.(links := store.links[lid := ResumeSkill(rid, sid, "")], nextId := lid + 1);
        created := true;
      }
    }
  }
}

=== FILE: views.dfy ===
/**
 * The class-based views of resumesite/views.py other than the aggregate
 * create: the owner check every `test_func` makes, the list and detail
 * pages, and the nested create, update and delete pages of a resume's
 * Education and Experience rows (and the update and delete pages of the
 * resume itself). Each page is a function from the store and the request to
 * an outcome and the new store; the logged-in user is a parameter.
 */
module Views {
  import opened Wrappers
  import opened Models
  import opened Forms
  import opened Persistence
  import opened Ordering

  // ---------------------------------------------------------------------------
  // Access

  /** The one test every `test_func` makes: the resume exists and its owner is the requester. */
  predicate IsOwner(st: Store, rid: Id, requester: UserId) {
    rid in st.resumes && st.resumes[rid].owner == requester
  }

  /** How dispatch through `UserPassesTestMixin` ends: the view runs, 403, or 404. */
  datatype Access = Granted | Forbidden | NotFound

  /**
   * `test_func` of the Resume detail, update and delete views and of the
   * nested create views (there with the URL's `resume_id`): look the resume
   * up or answer 404, then compare its owner with the requester.
   */
  function ResumeAccess(st: Store, rid: Id, requester: UserId): (a: Access)
    ensures a == Granted <==> IsOwner(st, rid, requester)
    ensures a == NotFound <==> rid !in st.resumes
  {
    if rid !in st.resumes then NotFound
    else if st.resumes[rid].owner == requester then Granted
    else Forbidden
  }

  /**
   * `test_func` of the Education update and delete views: the row is looked
   * up by its own key and its resume's owner compared with the requester.
   * The URL's `resume_id` plays no part.
   */
  function EducationAccess(st: Store, eid: Id, urlResumeId: Id, requester: UserId): (a: Access)
    ensures a == Granted <==> eid in st.educations && IsOwner(st, st.educations[eid].resume, requester)
    ensures eid !in st.educations ==> a == NotFound
    ensures a == Forbidden <==>
      eid in st.educations && st.educations[eid].resume in st.resumes && !IsOwner(st, st.educations[eid].resume, requester)
  {
    if eid !in st.educations then NotFound
    else ResumeAccess(st, st.educations[eid].resume, requester)
  }

  /** `test_func` of the Experience update and delete views, likewise. */
  function ExperienceAccess(st: Store, xid: Id, urlResumeId: Id, requester: UserId): (a: Access)
    ensures a == Granted <==> xid in st.experiences && IsOwner(st, st.experiences[xid].resume, requester)
    ensures xid !in st.experiences ==> a == NotFound
    ensures a == Forbidden <==>
      xid in st.experiences && st.experiences[xid].resume in st.resumes && !IsOwner(st, st.experiences[xid].resume, requester)
  {
    if xid !in st.experiences then NotFound
    else ResumeAccess(st, st.experiences[xid].resume, requester)
  }

  /** Update and delete of a child row decide access the same way whatever resume the URL names. */
  lemma ChildAccessIgnoresUrl(st: Store, id: Id, url1: Id, url2: Id, requester: UserId)
    ensures EducationAccess(st, id, url1, requester) == EducationAccess(st, id, url2, requester)
    ensures ExperienceAccess(st, id, url1, requester) == ExperienceAccess(st, id, url2, requester)
  {
  }

  // ---------------------------------------------------------------------------
  // List and detail

  /** `ResumeListView.get_queryset`: the requester's resumes, exactly those the detail view lets them open. */
  function ResumeList(st: Store, requester: UserId): (ids: set<Id>)
    ensures forall id :: id in ids <==> ResumeAccess(st, id, requester) == Granted
    ensures ids == OwnedBy(st, requester)
  {
    OwnedBy(st, requester)
  }

  function ExperienceOf(rid: Id): Experience -> bool { (x: Experience) => x.resume == rid }
  function EducationOf(rid: Id): Education -> bool { (e: Education) => e.resume == rid }
  function LinkOf(rid: Id): ResumeSkill -> bool { (l: ResumeSkill) => l.resume == rid }

  /**
   * `resume.experiences.all()`: every Experience row of the resume, each
   * once: position `i` holds the row under the `i`-th key of the resume's rows.
   */
  function ExperiencesOf(st: Store, rid: Id): (xs: seq<Experience>)
    ensures |xs| == |KeysWhere(st.experiences, st.nextId, ExperienceOf(rid))|
    ensures forall i :: 0 <= i < |xs| ==> xs[i] == st.experiences[KeysWhere(st.experiences, st.nextId, ExperienceOf(rid))[i]]
    ensures forall x :: x in xs ==> x.resume == rid && x in st.experiences.Values
    ensures IdsIssued(st) ==>
      forall id :: id in st.experiences && st.experiences[id].resume == rid ==> st.experiences[id] in xs
  {
    RowsWhere(st.experiences, st.nextId, ExperienceOf(rid))
  }

  /**
   * `resume.educations.all()`: every Education row of the resume, each
   * once: position `i` holds the row under the `i`-th key of the resume's rows.
   */
  function EducationsOf(st: Store, rid: Id): (es: seq<Education>)
    ensures |es| == |KeysWhere(st.educations, st.nextId, EducationOf(rid))|
    ensures forall i :: 0 <= i < |es| ==> es[i] == st.educations[KeysWhere(st.educations, st.nextId, EducationOf(rid))[i]]
    ensures forall e :: e in es ==> e.resume == rid && e in st.educations.Values
    ensures IdsIssued(st) ==>
      forall id :: id in st.educations && st.educations[id].resume == rid ==> st.educations[id] in es
  {
    RowsWhere(st.educations, st.nextId, EducationOf(rid))
  }

  /** The keys of the resume's links, in key order. */
  function LinkIdsOf(st: Store, rid: Id): seq<Id> {
    KeysWhere(st.links, st.nextId, LinkOf(rid))
  }

  /** `[rs.skill.name for rs in resume.resume_skills.all()]`. */
  function SkillNamesOf(st: Store, rid: Id): (names: seq<string>)
    requires Valid(st)
    ensures |names| == |LinkIdsOf(st, rid)|
  {
    var ids := LinkIdsOf(st, rid);
    seq(|ids|, i requires 0 <= i < |ids| => st.skills[st.links[ids[i]].skill].name)
  }

  /** The name of the Skill a link points at. */
  function LinkedName(st: Store, lid: Id): string
    requires lid in st.links && st.links[lid].skill in st.skills
  {
    st.skills[st.links[lid].skill].name
  }

  /**
   * The skill list of the detail page names exactly the Skills linked to the
   * resume.
   */
  lemma {:induction false} SkillNamesOfExact(st: Store, rid: Id)
    requires Valid(st)
    ensures forall n :: n in SkillNamesOf(st, rid) <==>
      exists lid :: lid in st.links && st.links[lid].resume == rid && LinkedName(st, lid) == n
  {
    var ids := LinkIdsOf(st, rid);
    var names := SkillNamesOf(st, rid);
    assert forall i :: 0 <= i < |ids| ==> names[i] == LinkedName(st, ids[i]);
    forall n ensures n in names <==> exists lid :: lid in st.links && st.links[lid].resume == rid && LinkedName(st, lid) == n {
      if n in names {
        var i :| 0 <= i < |names| && names[i] == n;
        assert LinkOf(rid)(st.links[ids[i]]);
      }
      if exists lid :: lid in st.links && st.links[lid].resume == rid && LinkedName(st, lid) == n {
        var lid :| lid in st.links && st.links[lid].resume == rid && LinkedName(st, lid) == n;
        assert LinkOf(rid)(st.links[lid]);
        assert lid in ids;
        var i :| 0 <= i < |ids| && ids[i] == lid;
        assert names[i] == n;
      }
    }
  }

  /** The skill list of the detail page names each Skill once: Skill names and links are unique. */
  lemma SkillNamesOfDistinct(st: Store, rid: Id)
    requires Valid(st)
    ensures forall i, j :: 0 <= i < j < |SkillNamesOf(st, rid)| ==> SkillNamesOf(st, rid)[i] != SkillNamesOf(st, rid)[j]
  {
    var ids := LinkIdsOf(st, rid);
    var names := SkillNamesOf(st, rid);
    forall i, j | 0 <= i < j < |names| ensures names[i] != names[j] {
      assert ids[i] < ids[j];
      assert LinkOf(rid)(st.links[ids[i]]) && LinkOf(rid)(st.links[ids[j]]);
    }
  }

  function StartKey(x: Experience): int { x.startDate.ordinal }
  function EndYearKey(e: Education): int { e.endYear }

  /** What the detail page shows. */
  datatype Detail = Detail(resume: Resume, experiences: seq<Experience>, educations: seq<Education>, skills: seq<string>)

  /**
   * `ResumeDetailView`: after the owner check, the resume, its Experiences
   * latest start first (`order_by('-start_date')`), its Educations latest
   * end year first (`order_by('-end_year')`), and its skill names.
   */
  function ResumeDetail(st: Store, rid: Id, requester: UserId): (r: Result<Detail, Access>)
    requires Valid(st)
    ensures r.Err? <==> !IsOwner(st, rid, requester)
    ensures r.Err? ==> r.error == ResumeAccess(st, rid, requester)
    ensures r.Ok? ==> r.value.resume == st.resumes[rid]
    ensures r.Ok? ==> SortedDesc(r.value.experiences, StartKey)
    ensures r.Ok? ==> multiset(r.value.experiences) == multiset(ExperiencesOf(st, rid))
    ensures r.Ok? ==> SortedDesc(r.value.educations, EndYearKey)
    ensures r.Ok? ==> multiset(r.value.educations) == multiset(EducationsOf(st, rid))
    ensures r.Ok? ==> r.value.skills == SkillNamesOf(st, rid)
  {
    var a := ResumeAccess(st, rid, requester);
    if a != Granted then Err(a)
    else
      Ok(Detail(st.resumes[rid],
                SortDesc(ExperiencesOf(st, rid), StartKey),
                SortDesc(EducationsOf(st, rid), EndYearKey),
                SkillNamesOf(st, rid)))
  }

  /** The detail page lists a row exactly when it belongs to the resume. */
  lemma DetailShowsExactlyTheRows(st: Store, rid: Id, requester: UserId)
    requires Valid(st) && IsOwner(st, rid, requester)
    ensures forall id :: id in st.experiences && st.experiences[id].resume == rid ==>
      st.experiences[id] in ResumeDetail(st, rid, requester).value.experiences
    ensures forall x :: x in ResumeDetail(st, rid, requester).value.experiences ==>
      x.resume == rid && x in st.experiences.Values
    ensures forall id :: id in st.educations && st.educations[id].resume == rid ==>
      st.educations[id] in ResumeDetail(st, rid, requester).value.educations
    ensures forall e :: e in ResumeDetail(st, rid, requester).value.educations ==>
      e.resume == rid && e in st.educations.Values
  {
    var d := ResumeDetail(st, rid, requester).value;
    forall x ensures x in d.experiences <==> x in ExperiencesOf(st, rid) {
      assert x in d.experiences <==> x in multiset(d.experiences);
      assert x in ExperiencesOf(st, rid) <==> x in multiset(ExperiencesOf(st, rid));
    }
    forall e ensures e in d.educations <==> e in EducationsOf(st, rid) {
      assert e in d.educations <==> e in multiset(d.educations);
      assert e in EducationsOf(st, rid) <==> e in multiset(EducationsOf(st, rid));
    }
  }

  // ---------------------------------------------------------------------------
  // Single-row writes

  /** How a write page ends: refused by the owner check, form re-displayed, or saved/deleted. */
  datatype Outcome = Refused(reason: Access) | Invalid | Done

  /** The Resume a ResumeForm saves for `owner`. */
  function ResumeRecord(owner: UserId, d: ResumeData): Resume {
    Resume(owner, d.title, d.summary, d.contactEmail, d.contactPhone, d.contactAddress)
  }

  /** The Resume saved from a valid ResumeForm passes both contact checks, whoever owns it. */
  lemma ResumeRecordAccepted(owner: UserId, d: ResumeData, fieldErrors: bool)
    requires ResumeFormValid(d, fieldErrors)
    ensures ContactsAccepted(ResumeRecord(owner, d))
  {
  }

  /** The Experience a form row saves once its resume is set. */
  function ExperienceRecord(rid: Id, d: ExperienceData): Experience
    requires d.startDate.Some?
  {
    Experience(rid, d.jobTitle, d.company, d.startDate.value, d.endDate, d.description)
  }

  /** The Education a form row saves once its resume is set. */
  function EducationRecord(rid: Id, d: EducationData): Education
    requires d.startYear.Some? && d.endYear.Some?
  {
    Education(rid, d.school, d.degree, d.startYear.value, d.endYear.value, d.score)
  }

  /**
   * `ResumeUpdateView`: a ModelForm over the five listed fields. The owner
   * is not a form field and stays as it was.
   */
  function UpdateResume(st: Store, rid: Id, requester: UserId, d: ResumeData, fieldErrors: bool): (res: (Outcome, Store))
    ensures res.0.Refused? <==> !IsOwner(st, rid, requester)
    ensures res.0.Refused? ==> res.0.reason == ResumeAccess(st, rid, requester)
    ensures res.0 == Done <==> IsOwner(st, rid, requester) && !fieldErrors && ResumeComplete(d)
    ensures res.0 != Done ==> res.1 == st
    ensures res.0 == Done ==> res.1 == st.(resumes := st.resumes[rid := ResumeRecord(requester, d)])
    ensures res.1 != st ==> IsOwner(st, rid, requester)
    ensures Valid(st) ==> Valid(res.1)
  {
    var a := ResumeAccess(st, rid, requester);
    if a != Granted then (Refused(a), st)
    else if fieldErrors || !ResumeComplete(d) then (Invalid, st)
    else (Done, st.(resumes := st.resumes[rid := ResumeRecord(st.resumes[rid].owner, d)]))
  }

  /** `ResumeDeleteView`: after the owner check, the resume and everything under it go. */
  function DeleteResumeView(st: Store, rid: Id, requester: UserId): (res: (Outcome, Store))
    ensures res.0.Refused? <==> !IsOwner(st, rid, requester)
    ensures res.0.Refused? ==> res.0.reason == ResumeAccess(st, rid, requester) && res.1 == st
    ensures res.0 == Done <==> IsOwner(st, rid, requester)
    ensures res.0 == Done ==> res.1 == DeleteResume(st, rid)
    ensures res.1 != st ==> IsOwner(st, rid, requester)
    ensures Valid(st) ==> Valid(res.1)
  {
    var a := ResumeAccess(st, rid, requester);
    if a != Granted then (Refused(a), st) else (Done, DeleteResume(st, rid))
  }

  /**
   * `EducationCreateView`: the owner check on the URL's resume, then a
   * ModelForm over the listed fields (no `EducationForm.clean`); the new row
   * is attached to the URL's resume.
   */
  function CreateEducation(st: Store, urlResumeId: Id, requester: UserId, d: EducationData, fieldErrors: bool)
    : (res: (Outcome, Store))
    ensures res.0.Refused? <==> !IsOwner(st, urlResumeId, requester)
    ensures res.0.Refused? ==> res.0.reason == ResumeAccess(st, urlResumeId, requester)
    ensures res.0 == Done <==> IsOwner(st, urlResumeId, requester) && !fieldErrors && EducationComplete(d)
    ensures res.0 != Done ==> res.1 == st
    ensures res.0 == Done ==> res.1 == AddEducation(st, EducationRecord(urlResumeId, d))
    ensures res.1 != st ==> IsOwner(st, urlResumeId, requester)
    ensures Valid(st) ==> Valid(res.1)
  {
    var a := ResumeAccess(st, urlResumeId, requester);
    if a != Granted then (Refused(a), st)
    else if fieldErrors || !EducationComplete(d) then (Invalid, st)
    else (Done, AddEducation(st, EducationRecord(urlResumeId, d)))
  }

  /** `EducationUpdateView`: the row keeps its resume; its form fields are replaced. */
  function UpdateEducation(st: Store, eid: Id, urlResumeId: Id, requester: UserId, d: EducationData, fieldErrors: bool)
    : (res: (Outcome, Store))
    ensures res.0.Refused? <==> EducationAccess(st, eid, urlResumeId, requester) != Granted
    ensures res.0.Refused? ==> res.0.reason == EducationAccess(st, eid, urlResumeId, requester)
    ensures res.0 == Done <==>
      EducationAccess(st, eid, urlResumeId, requester) == Granted && !fieldErrors && EducationComplete(d)
    ensures res.0 != Done ==> res.1 == st
    ensures res.0 == Done ==>
      res.1 == st.(educations := st.educations[eid := EducationRecord(st.educations[eid].resume, d)])
    ensures res.1 != st ==> eid in st.educations && IsOwner(st, st.educations[eid].resume, requester)
    ensures Valid(st) ==> Valid(res.1)
  {
    var a := EducationAccess(st, eid, urlResumeId, requester);
    if a != Granted then (Refused(a), st)
    else if fieldErrors || !EducationComplete(d) then (Invalid, st)
    else (Done, st.(educations := st.educations[eid := EducationRecord(st.educations[eid].resume, d)]))
  }

  /** `EducationDeleteView`. */
  function DeleteEducation(st: Store, eid: Id, urlResumeId: Id, requester: UserId): (res: (Outcome, Store))
    ensures res.0.Refused? <==> EducationAccess(st, eid, urlResumeId, requester) != Granted
    ensures res.0.Refused? ==> res.0.reason == EducationAccess(st, eid, urlResumeId, requester)
    ensures res.0.Refused? ==> res.1 == st
    ensures res.0 == Done <==> EducationAccess(st, eid, urlResumeId, requester) == Granted
    ensures res.0 == Done ==> res.1 == st.(educations := st.educations - {eid})
    ensures res.1 != st ==> eid in st.educations && IsOwner(st, st.educations[eid].resume, requester)
    ensures Valid(st) ==> Valid(res.1)
  {
    var a := EducationAccess(st, eid, urlResumeId, requester);
    if a != Granted then (Refused(a), st) else (Done, st.(educations := st.educations - {eid}))
  }

  /**
   * `ExperienceCreateView`: the owner check on the URL's resume, then a
   * ModelForm over the listed fields (no `ExperienceForm.clean`); the new row
   * is attached to the URL's resume.
   */
  function CreateExperience(st: Store, urlResumeId: Id, requester: UserId, d: ExperienceData, fieldErrors: bool)
    : (res: (Outcome, Store))
    ensures res.0.Refused? <==> !IsOwner(st, urlResumeId, requester)
    ensures res.0.Refused? ==> res.0.reason == ResumeAccess(st, urlResumeId, requester)
    ensures res.0 == Done <==> IsOwner(st, urlResumeId, requester) && !fieldErrors && ExperienceComplete(d)
    ensures res.0 != Done ==> res.1 == st
    ensures res.0 == Done ==> res.1 == AddExperience(st, ExperienceRecord(urlResumeId, d))
    ensures res.1 != st ==> IsOwner(st, urlResumeId, requester)
    ensures Valid(st) ==> Valid(res.1)
  {
    var a := ResumeAccess(st, urlResumeId, requester);
    if a != Granted then (Refused(a), st)
    else if fieldErrors || !ExperienceComplete(d) then (Invalid, st)
    else (Done, AddExperience(st, ExperienceRecord(urlResumeId, d)))
  }

  /** `ExperienceUpdateView`: the row keeps its resume; its form fields are replaced. */
  function UpdateExperience(st: Store, xid: Id, urlResumeId: Id, requester: UserId, d: ExperienceData, fieldErrors: bool)
    : (res: (Outcome, Store))
    ensures res.0.Refused? <==> ExperienceAccess(st, xid, urlResumeId, requester) != Granted
    ensures res.0.Refused? ==> res.0.reason == ExperienceAccess(st, xid, urlResumeId, requester)
    ensures res.0 == Done <==>
      ExperienceAccess(st, xid, urlResumeId, requester) == Granted && !fieldErrors && ExperienceComplete(d)
    ensures res.0 != Done ==> res.1 == st
    ensures res.0 == Done ==>
      res.1 == st.(experiences := st.experiences[xid := ExperienceRecord(st.experiences[xid].resume, d)])
    ensures res.1 != st ==> xid in st.experiences && IsOwner(st, st.experiences[xid].resume, requester)
    ensures Valid(st) ==> Valid(res.1)
  {
    var a := ExperienceAccess(st, xid, urlResumeId, requester);
    if a != Granted then (Refused(a), st)
    else if fieldErrors || !ExperienceComplete(d) then (Invalid, st)
    else (Done, st.(experiences := st.experiences[xid := ExperienceRecord(st.experiences[xid].resume, d)]))
  }

  /** `ExperienceDeleteView`. */
  function DeleteExperience(st: Store, xid: Id, urlResumeId: Id, requester: UserId): (res: (Outcome, Store))
    ensures res.0.Refused? <==> ExperienceAccess(st, xid, urlResumeId, requester) != Granted
    ensures res.0.Refused? ==> res.0.reason == ExperienceAccess(st, xid, urlResumeId, requester)
    ensures res.0.Refused? ==> res.1 == st
    ensures res.0 == Done <==> ExperienceAccess(st, xid, urlResumeId, requester) == Granted
    ensures res.0 == Done ==> res.1 == st.(experiences := st.experiences - {xid})
    ensures res.1 != st ==> xid in st.experiences && IsOwner(st, st.experiences[xid].resume, requester)
    ensures Valid(st) ==> Valid(res.1)
  {
    var a := ExperienceAccess(st, xid, urlResumeId, requester);
    if a != Granted then (Refused(a), st) else (Done, st.(experiences := st.experiences - {xid}))
  }

  // ---------------------------------------------------------------------------
  // The form rules as properties of stored rows

  /** A stored Experience passes `ExperienceForm.clean`: no end date, or one not before the start. */
  predicate DatesOrdered(x: Experience) {
    x.endDate.None? || !DateBefore(x.endDate.value, x.startDate)
  }

  predicate AllDatesOrdered(st: Store) {
    forall id :: id in st.experiences ==> DatesOrdered(st.experiences[id])
  }

  /** A stored Education passes `EducationForm.clean` in year `currentYear`. */
  predicate YearsAccepted(e: Education, currentYear: int) {
    CleanEducation(EducationData(e.school, e.degree, Some(e.startYear), Some(e.endYear), e.score), false, currentYear) == None
  }

  predicate AllYearsAccepted(st: Store, currentYear: int) {
    forall id :: id in st.educations ==> YearsAccepted(st.educations[id], currentYear)
  }

  /** A stored Resume passes `clean_contact_phone` and `clean_contact_email`. */
  ghost predicate ContactsAccepted(r: Resume) {
    PhoneShape(r.contactPhone) && EmailPrefixMatches(r.contactEmail)
  }

  ghost predicate AllContactsAccepted(st: Store) {
    forall id :: id in st.resumes ==> ContactsAccepted(st.resumes[id])
  }

  lemma ExperienceRecordOrdered(rid: Id, d: ExperienceData)
    requires d.startDate.Some? && CleanExperience(d, false) == None
    ensures DatesOrdered(ExperienceRecord(rid, d))
  {
  }

  lemma EducationRecordAccepted(rid: Id, d: EducationData, currentYear: int)
    requires d.startYear.Some? && d.endYear.Some? && CleanEducation(d, false, currentYear) == None
    ensures YearsAccepted(EducationRecord(rid, d), currentYear)
  {
    assert EducationData(d.school, d.degree, Some(d.startYear.value), Some(d.endYear.value), d.score) == d;
  }

  // ---------------------------------------------------------------------------
  // The nested pages with their form's clean method applied

  /** `ExperienceCreateView` with `ExperienceForm.clean` run on the submitted row. */
  function CheckedCreateExperience(st: Store, urlResumeId: Id, requester: UserId, d: ExperienceData, fieldErrors: bool)
    : (res: (Outcome, Store))
    ensures res.0 == Done <==>
      CreateExperience(st, urlResumeId, requester, d, fieldErrors).0 == Done && CleanExperience(d, false) == None
    ensures res.0 == Done ==> res == CreateExperience(st, urlResumeId, requester, d, fieldErrors)
    ensures res.0 != Done ==> res.1 == st
    ensures AllDatesOrdered(st) ==> AllDatesOrdered(res.1)
    ensures Valid(st) ==> Valid(res.1)
  {
    var res := CreateExperience(st, urlResumeId, requester, d, fieldErrors);
    if res.0 != Done then res
    else if CleanExperience(d, false).Some? then (Invalid, st)
    else ExperienceRecordOrdered(urlResumeId, d); res
  }

  /** `ExperienceUpdateView` with `ExperienceForm.clean` run on the submitted row. */
  function CheckedUpdateExperience(st: Store, xid: Id, urlResumeId: Id, requester: UserId, d: ExperienceData, fieldErrors: bool)
    : (res: (Outcome, Store))
    ensures res.0 == Done <==>
      UpdateExperience(st, xid, urlResumeId, requester, d, fieldErrors).0 == Done && CleanExperience(d, false) == None
    ensures res.0 == Done ==> res == UpdateExperience(st, xid, urlResumeId, requester, d, fieldErrors)
    ensures res.0 != Done ==> res.1 == st
    ensures AllDatesOrdered(st) ==> AllDatesOrdered(res.1)
    ensures Valid(st) ==> Valid(res.1)
  {
    var res := UpdateExperience(st, xid, urlResumeId, requester, d, fieldErrors);
    if res.0 != Done then res
    else if CleanExperience(d, false).Some? then (Invalid, st)
    else ExperienceRecordOrdered(st.experiences[xid].resume, d); res
  }

  /** `EducationCreateView` with `EducationForm.clean` run on the submitted row. */
  function CheckedCreateEducation(st: Store, urlResumeId: Id, requester: UserId, d: EducationData, fieldErrors: bool,
                                  currentYear: int)
    : (res: (Outcome, Store))
    ensures res.0 == Done <==>
      CreateEducation(st, urlResumeId, requester, d, fieldErrors).0 == Done && CleanEducation(d, false, currentYear) == None
    ensures res.0 == Done ==> res == CreateEducation(st, urlResumeId, requester, d, fieldErrors)
    ensures res.0 != Done ==> res.1 == st
    ensures AllYearsAccepted(st, currentYear) ==> AllYearsAccepted(res.1, currentYear)
    ensures Valid(st) ==> Valid(res.1)
  {
    var res := CreateEducation(st, urlResumeId, requester, d, fieldErrors);
    if res.0 != Done then res
    else if CleanEducation(d, false, currentYear).Some? then (Invalid, st)
    else EducationRecordAccepted(urlResumeId, d, currentYear); res
  }

  /** `EducationUpdateView` with `EducationForm.clean` run on the submitted row. */
  function CheckedUpdateEducation(st: Store, eid: Id, urlResumeId: Id, requester: UserId, d: EducationData, fieldErrors: bool,
                                  currentYear: int)
    : (res: (Outcome, Store))
    ensures res.0 == Done <==>
      UpdateEducation(st, eid, urlResumeId, requester, d, fieldErrors).0 == Done && CleanEducation(d, false, currentYear) == None
    ensures res.0 == Done ==> res == UpdateEducation(st, eid, urlResumeId, requester, d, fieldErrors)
    ensures res.0 != Done ==> res.1 == st
    ensures AllYearsAccepted(st, currentYear) ==> AllYearsAccepted(res.1, currentYear)
    ensures Valid(st) ==> Valid(res.1)
  {
    var res := UpdateEducation(st, eid, urlResumeId, requester, d, fieldErrors);
    if res.0 != Done then res
    else if CleanEducation(d, false, currentYear).Some? then (Invalid, st)
    else EducationRecordAccepted(st.educations[eid].resume, d, currentYear); res
  }

  /** `ResumeUpdateView` validating with ResumeForm, phone and email checks included. */
  function CheckedUpdateResume(st: Store, rid: Id, requester: UserId, d: ResumeData, fieldErrors: bool): (res: (Outcome, Store))
    ensures res.0 == Done <==>
      UpdateResume(st, rid, requester, d, fieldErrors).0 == Done && ResumeFormValid(d, fieldErrors)
    ensures res.0 == Done ==> res == UpdateResume(st, rid, requester, d, fieldErrors)
    ensures res.0 != Done ==> res.1 == st
    ensures AllContactsAccepted(st) ==> AllContactsAccepted(res.1)
    ensures Valid(st) ==> Valid(res.1)
  {
    var res := UpdateResume(st, rid, requester, d, fieldErrors);
    if res.0 == Done && !ResumeFormValid(d, fieldErrors) then (Invalid, st) else res
  }

  // ---------------------------------------------------------------------------
  // The nested pages as written store rows their form's clean method rejects

  /** One user (1) owning one resume (0) with well-formed contact details, and nothing else. */
  function OneResumeStore(): (st: Store)
    ensures Valid(st) && IsOwner(st, 0, 1)
    ensures AllDatesOrdered(st) && AllYearsAccepted(st, 2024)
  {
    Store({1}, map[0 := Resume(1, "CV", "About me", "a@b.co", "123456789", "Main St")], map[], map[], map[], map[], 1)
  }

  /** An Experience ending 2019-01-01 and starting 2020-01-01 is saved by the nested create page. */
  lemma CreateExperienceAcceptsEndBeforeStart()
    ensures var d := ExperienceData("Engineer", "Acme", Some(Date(737425)), Some(Date(737060)), "Built things");
      && CleanExperience(d, false) == Some(EndDateBeforeStart)
      && CreateExperience(OneResumeStore(), 0, 1, d, false).0 == Done
      && !AllDatesOrdered(CreateExperience(OneResumeStore(), 0, 1, d, false).1)
  {
    var d := ExperienceData("Engineer", "Acme", Some(Date(737425)), Some(Date(737060)), "Built things");
    var st' := CreateExperience(OneResumeStore(), 0, 1, d, false).1;
    assert st'.experiences[1] == ExperienceRecord(0, d);
  }

  /** The resume of `OneResumeStore` with one Experience (1) of resume 0, started 2019-01-01 and not ended. */
  function OneExperienceStore(): (st: Store)
    ensures Valid(st) && AllDatesOrdered(st)
    ensures 1 in st.experiences && st.experiences[1].resume == 0 && IsOwner(st, 0, 1)
  {
    Store({1}, map[0 := Resume(1, "CV", "About me", "a@b.co", "123456789", "Main St")], map[],
          map[1 := Experience(0, "Engineer", "Acme", Date(737060), None, "Built")], map[], map[], 2)
  }

  /** The nested update page likewise turns a stored Experience into one ending before it starts. */
  lemma UpdateExperienceAcceptsEndBeforeStart()
    ensures var d := ExperienceData("Engineer", "Acme", Some(Date(737425)), Some(Date(737060)), "Built things");
      && CleanExperience(d, false) == Some(EndDateBeforeStart)
      && UpdateExperience(OneExperienceStore(), 1, 0, 1, d, false).0 == Done
      && !AllDatesOrdered(UpdateExperience(OneExperienceStore(), 1, 0, 1, d, false).1)
  {
    var d := ExperienceData("Engineer", "Acme", Some(Date(737425)), Some(Date(737060)), "Built things");
    var st' := UpdateExperience(OneExperienceStore(), 1, 0, 1, d, false).1;
    assert st'.experiences[1] == ExperienceRecord(0, d);
  }

  /** An Education started in 1800 is saved by the nested create page. */
  lemma CreateEducationAcceptsYearOutOfRange()
    ensures var d := EducationData("Old School", "BA", Some(1800), Some(1804), "");
      && CleanEducation(d, false, 2024) == Some(StartYearOutOfRange)
      && CreateEducation(OneResumeStore(), 0, 1, d, false).0 == Done
      && !AllYearsAccepted(CreateEducation(OneResumeStore(), 0, 1, d, false).1, 2024)
  {
    var d := EducationData("Old School", "BA", Some(1800), Some(1804), "");
    var st' := CreateEducation(OneResumeStore(), 0, 1, d, false).1;
    assert st'.educations[1] == EducationRecord(0, d);
  }

  /** The resume of `OneResumeStore` with one Education (1) of resume 0, from 2015 to 2016. */
  function OneEducationStore(): (st: Store)
    ensures Valid(st) && AllYearsAccepted(st, 2024)
    ensures 1 in st.educations && st.educations[1].resume == 0 && IsOwner(st, 0, 1)
  {
    Store({1}, map[0 := Resume(1, "CV", "About me", "a@b.co", "123456789", "Main St")],
          map[1 := Education(0, "School", "BA", 2015, 2016, "")], map[], map[], map[], 2)
  }

  /** The nested update page likewise stores an end year before the start year. */
  lemma UpdateEducationAcceptsEndBeforeStart()
    ensures var d := EducationData("School", "BA", Some(2016), Some(2015), "");
      && CleanEducation(d, false, 2024) == Some(EndYearBeforeStart)
      && UpdateEducation(OneEducationStore(), 1, 0, 1, d, false).0 == Done
      && !AllYearsAccepted(UpdateEducation(OneEducationStore(), 1, 0, 1, d, false).1, 2024)
  {
    var d := EducationData("School", "BA", Some(2016), Some(2015), "");
    var st' := UpdateEducation(OneEducationStore(), 1, 0, 1, d, false).1;
    assert st'.educations[1] == EducationRecord(0, d);
  }

  /** The contact details of `OneResumeStore` pass the create form's clean methods. */
  lemma OneResumeStoreContactsAccepted()
    ensures AllContactsAccepted(OneResumeStore())
  {
    var s := "a@b.co";
    assert EmailShapeAt(s, 1, 3, 6) by {
      assert s[..1] == "a" && s[2..3] == "b" && s[4..6] == "co";
    }
    assert PhoneShape("123456789");
  }

  /** The update page of a resume stores a phone number the create form rejects. */
  lemma UpdateResumeAcceptsBadPhone()
    ensures var d := ResumeData("CV", "About me", "a@b.co", "call me", "Main St");
      && CleanContactPhone(d.contactPhone) == Err(InvalidPhone)
      && AllContactsAccepted(OneResumeStore())
      && UpdateResume(OneResumeStore(), 0, 1, d, false).0 == Done
      && !AllContactsAccepted(UpdateResume(OneResumeStore(), 0, 1, d, false).1)
  {
    var d := ResumeData("CV", "About me", "a@b.co", "call me", "Main St");
    assert CleanContactPhone(d.contactPhone) == Err(InvalidPhone) by {
      assert !IsDigit(d.contactPhone[0]);
    }
    OneResumeStoreContactsAccepted();
    var st' := UpdateResume(OneResumeStore(), 0, 1, d, false).1;
    assert st'.resumes[0] == ResumeRecord(1, d);
  }
}

=== FILE: wrappers.dfy ===
/** Failure-carrying values used by the validators and views. */
module Wrappers {

  /** A value that may be absent (Python's `None`). */
  datatype Option<+T> = None | Some(value: T)

  /** Either a value or an error (a clean method that returns or raises). */
  datatype Result<+T, +E> = Ok(value: T) | Err(error: E)
}
